=== FILE: README.md ===
# SensorThings materializer — a Dafny model

This project models the core of two spreadsheet-to-SensorThings converters. Each one reads a
workbook of wide measurement sheets, where one row is a station at one timestamp and one column
is a measurement code. From that it builds the SensorThings entity graph and nests it into one
document: Things, each with its Locations and Datastreams, and each Datastream with its Sensor,
ObservedProperty and Observations.

There are two converters, and one model covers both through `Entities.Variant`:

- **`StationKeyed`** is the `SensorThingsTransformer` class (`excel_to_sta_customized.py`). It
  keys Things by station code (`ID_MS`) alone and Datastreams by Thing id and code. Its
  Observations carry no Datastream reference.
- **`LegendKeyed`** is the `excel_to_sensorthings` function (`final_version_6things.py`). It reads
  the `LEGENDE` sheet into a map from station code to site label (HMS) and remark (Bemerkung). It
  keys Things by `hms_bemerkung_idMs` and adds the `_hms_bemerkung` suffix to Datastream keys. Each
  Observation records its Datastream's id, which assembly uses to group Observations and then
  removes. The converter skips sheets that lack the station or timestamp column.

The modules follow the program:

- `Table`: the workbook as the spreadsheet loader hands it over. Cells are
  `Missing | Num | Text | Time`, and a row lookup is a KeyError when the column is absent.
- `Catalogue`: the static unit catalogue and its fallbacks.
- `Registry`: the create-or-get dictionaries, modelled as a map plus the insertion order.
- `Entities`: the entities, their natural keys and `@iot.id`s, and the attribute values each
  converter fills in on creation.
- `Legend`: the legend map.
- `Materializer`: the conversion state and the `create_*` operations, with the invariant they keep.
- `Process`: the loop over sheets, rows and cells. A KeyError or a `float()` failure aborts the run.
- `Pivot`: an independent reference reading of the workbook as a list of
  (station, timestamp, code, value) readings. The conversion is proved to record exactly these,
  in order.
- `Assembly`: the nested document. It comes in two forms. The intended one associates by the owning
  Thing's key and the Observation's Datastream id, and names each Location `location_` plus its
  Thing's key. The as-written one uses each converter's `startswith` test and observation loop,
  and keeps the Location ids the converter computed.
- `Transform`: the whole conversion.
- `Findings`: where the code departs from what it evidently intends.

An empty `locations`, `datastreams` or `observations` list stands for a key the converters omit
(`if thing_datastreams:`, `if datastream_observations:`).

Three behaviours of the code that a reader might not expect; the model follows the code:

- A row whose station cell is empty is not skipped. `str(NaN)` makes it station `"nan"`
  (excel_to_sta_customized.py:291).
- A row with a missing timestamp still registers its Thing and Location before it is skipped
  (excel_to_sta_customized.py:294-303).
- The station-keyed converter stores Datastreams under `thing_id + "_" + code` with no legend
  suffix (excel_to_sta_customized.py:204). It also associates Datastreams with Things by key
  prefix, not by an owner reference (excel_to_sta_customized.py:354).

## Model

| member | source | states |
|---|---|---|
| Registry.CreateOrGet | excel_to_sta_customized.py:103-115 | The returned entity is the one stored under the key. A key seen before returns the earlier entity and leaves the dictionary unchanged. A new key stores the built entity and is appended last in iteration order. Nothing stored before changes. |
| Registry.CreateOrGetKeepsValid | excel_to_sta_customized.py:103-115 | After create-or-get, every stored key still appears exactly once in the iteration order. |
| Registry.CreateOrGetTwice | excel_to_sta_customized.py:103-115 | Create-or-get is idempotent. A second call with the same key returns the first call's entity and changes nothing, whatever entity it would have built. |
| Table.Get | excel_to_sta_customized.py:291 | `row[name]` fails with a KeyError for that column exactly when the sheet has no such column. |
| Strings.BeforeIs | excel_to_sta_customized.py:324 | `split(sep)[0]` of a text is its part before the first separator: a head without the separator, followed by nothing or by the separator. |
| Strings.SecondFieldIs | excel_to_sta_customized.py:128 | `split(sep)[1]` of `first + sep + second + rest` is `second`, when neither field contains the separator and `rest` is empty or starts a further field. |
| Strings.ReplaceAllAbsent | final_version_6things.py:135 | `replace(pat, rep)` leaves a text without any occurrence of `pat` unchanged. |
| Strings.ReplaceAllHit | final_version_6things.py:135 | `replace` substitutes an occurrence at the front and continues after it. |
| Strings.ReplaceAllSkip | final_version_6things.py:135 | `replace` keeps a stretch of text that does not contain the first character of `pat`, and continues after it. |
| Catalogue.Lookup | excel_to_sta_customized.py:156 | The catalogue lookup finds nothing exactly when no entry has the code. Otherwise it returns an entry listed for that code. |
| Entities.NewThing | excel_to_sta_customized.py:104-113 | A new Thing's id is `thing_` plus its natural key, and it records the station code and category. Only the legend-keyed converter records the site. |
| Entities.NewLocation | final_version_6things.py:134-151 | A new Location is a GeoJSON point at (0, 0) under the id the converter computes from the Thing id: `split('_')[1]` for the station-keyed converter, `replace('thing_', '')` for the legend-keyed one. Its name uses the site only when the site label is known. Otherwise, and always in the station-keyed converter, it names the Thing id. |
| Entities.NewObservedProperty | excel_to_sta_customized.py:152-165 | The id is `op_` plus the code, and the definition URL ends in the code. The name is the catalogue name for a known code and the code itself for an unknown one. |
| Entities.NewSensor | excel_to_sta_customized.py:177-191 | The id is `sensor_` plus the code, and the metadata URL ends in the code. A known code gives the name "<catalogue name> Sensor", and an unknown code gives "<code> Sensor". |
| Entities.NewDatastream | excel_to_sta_customized.py:206-231 | A new Datastream is an OM_Measurement with the id `ds_` plus its key, and it references the given Sensor and ObservedProperty. A known code takes the catalogue unit. An unknown code takes the unit ("Unknown", "", "ucum:") and is no error. |
| Entities.IdsInjective | excel_to_sta_customized.py:104 | Distinct natural keys never share a Thing, Location, Datastream, Sensor or ObservedProperty id. |
| Entities.ThingKeyInjective | final_version_6things.py:114 | At the same site, different station codes give different Thing keys, in both converters. |
| Entities.DatastreamKeyInjective | final_version_6things.py:210 | For one Thing and site, different codes give different Datastream keys, in both converters (the station-keyed key is at excel_to_sta_customized.py:204). |
| Entities.LocationIdDefined | excel_to_sta_customized.py:128 | A Thing id always has a second `_`-separated field, so computing its Location id never raises the IndexError. |
| Entities.StationLocationIdAgrees | excel_to_sta_customized.py:127-128 | For a station code without `_`, `thing_id.split('_')[1]` gives the intended Location id. |
| Entities.LegendLocationIdAgrees | final_version_6things.py:134-135 | For a Thing key that does not contain `thing_`, `replace('thing_', '')` gives the intended Location id. |
| Legend.FindSheet | final_version_6things.py:30-31 | Finds the sheet with the given name, and finds nothing exactly when the workbook has no sheet of that name. |
| Legend.RowSite | final_version_6things.py:35-37 | A present HMS or Bemerkung is the text of its cell, as every interpolation into names, descriptions and keys renders it. A missing HMS reads "Unknown". A missing Bemerkung cell, or a sheet without that column, reads "". |
| Legend.LegendRows | final_version_6things.py:34-43 | The map's keys are exactly the station codes the legend rows list. Each code maps to the site of the last row that lists it. |
| Legend.BuildLegend | final_version_6things.py:29-43 | The map is empty when there is no LEGENDE sheet, or when that sheet lacks an HMS or ID_MS column. Otherwise its keys are exactly the codes the LEGENDE rows list, each mapped to the site of the last row that lists it. |
| Legend.SiteOfLegend | final_version_6things.py:29-111 | The site a station gets is the site of the last LEGENDE row listing its code. It is ("Unknown", "") when there is no LEGENDE sheet, when that sheet lacks HMS or ID_MS, or when no row lists the code. |
| Materializer.Initial | final_version_6things.py:20-26 | The conversion starts with all five dictionaries empty and no Observations, a state that satisfies the invariant. |
| Materializer.CreateThing | excel_to_sta_customized.py:92-115 | Returns the Thing stored under the station's natural key, creating it only on first sight. Only the Thing dictionary may change. |
| Materializer.CreateThingTwice | excel_to_sta_customized.py:103-115 | A second call for the same station returns the first Thing unchanged, whatever category it passes. The first category persists. |
| Materializer.CreateThingKeepsInv | excel_to_sta_customized.py:92-115 | Creating a Thing keeps the invariant, and the Thing carries the id of its key. |
| Materializer.CreateLocation | excel_to_sta_customized.py:117-140 | Each Thing id has exactly one Location, created on first sight. A later call changes nothing. Only the Location dictionary may change. |
| Materializer.CreateLocationKeepsInv | excel_to_sta_customized.py:117-140 | Creating a Location keeps the invariant, so every Location stays at (0, 0). |
| Materializer.CreateObservedProperty | excel_to_sta_customized.py:142-165 | Create-or-get of the ObservedProperty of a code. Only that dictionary may change. |
| Materializer.CreateSensor | excel_to_sta_customized.py:167-191 | Create-or-get of the Sensor of a code. Only that dictionary may change. |
| Materializer.CreateDatastream | final_version_6things.py:180-227 | Returns the Datastream stored under its natural key, creating it only on first sight. The legend-keyed converter has registered the code's Sensor and ObservedProperty by then. Things, Locations and Observations are untouched. |
| Materializer.CreateDatastreamKeepsInv | excel_to_sta_customized.py:193-231 | Creating a Datastream for a registered Thing keeps the invariant. Its Sensor and ObservedProperty are registered, and it is well formed under its key. |
| Materializer.CreateDatastreamId | excel_to_sta_customized.py:206-207 | The Datastream returned carries the `ds_` id of its key, whether it was created now or before. |
| Materializer.CreateObservationKeepsInv | final_version_6things.py:230-237 | Appending an Observation that refers to a registered Datastream keeps every Observation resolvable. |
| Pivot.SheetReadingsStamped | excel_to_sta_customized.py:281-307 | Every reading of a sheet carries the timestamp of a row whose cell in the sheet's timestamp column is present: DATUM_ZEIT for FREIFLÄCHE, DATUMZEIT for the Boden+Lufttemp sheet, DATUM otherwise. A datetime becomes its ISO string, and any other value is kept. |
| Pivot.CodeOf | excel_to_sta_customized.py:324 | The code is the longest prefix of the header without a blank, ending where the header ends or at its first blank. |
| Pivot.CellReadings | excel_to_sta_customized.py:310-331 | A row fails exactly when some present measurement cell is not numeric. Otherwise it yields as many readings as there are present measurement cells, each with the row's station and timestamp, and each from a present cell of a measurement column: its code is that column's code (`split(" ")[0]`), and its value is the cell's `float()`. |
| Pivot.PresentColumnsExactly | excel_to_sta_customized.py:310-320 | The columns a row's loop reads are exactly the measurement columns (not ID_MS, not the timestamp column, not `Unnamed…`) whose cell is present, each once, in increasing column order. |
| Pivot.CellReadingsInOrder | excel_to_sta_customized.py:310-331 | A successful row yields one reading per present measurement cell, in column order: reading `k` comes from the `k`-th such column, with its code and its cell's `float()` value. |
| Pivot.RowReadings | excel_to_sta_customized.py:289-303 | A sheet without the ID_MS column fails with that KeyError. One with ID_MS but no timestamp column fails with the timestamp column's KeyError. |
| Pivot.SheetReadings | final_version_6things.py:79-103 | The LEGENDE sheet yields nothing. In the legend-keyed converter, a sheet can only fail on a non-numeric value. |
| Process.ProcessCells | excel_to_sta_customized.py:310-331 | Processing a row's cells only adds Datastreams, Sensors, ObservedProperties and Observations. Things and Locations are untouched. |
| Process.ProcessSheet | final_version_6things.py:79-103 | The LEGENDE sheet changes nothing. So does a sheet that lacks the station or timestamp column, in the legend-keyed converter. |
| Process.ProcessSheetCategory | excel_to_sta_customized.py:270-294 | Every Thing first registered while a sheet is processed has the category its name selects: "Weather Station" for FREIFLÄCHE, "Soil Sensor" for names containing "Boden" or "Tension", "Generic Sensor" otherwise. |
| Process.RecordValueAgrees | excel_to_sta_customized.py:326-331 | Recording one value appends exactly one Observation. Its phenomenon and result times are both the row's timestamp, and it carries the id of the Datastream of its station's Thing and code. Nothing already recorded changes. |
| Process.ProcessCellsAgrees | excel_to_sta_customized.py:310-331 | The cell loop fails exactly when the reference reading of the row fails, with the same error. Otherwise it appends exactly the reference readings, tagged with their Datastream ids, in column order. |
| Process.ProcessRowAgrees | excel_to_sta_customized.py:289-331 | The same agreement holds for one row, including its KeyErrors. |
| Process.ProcessSheetAgrees | excel_to_sta_customized.py:255-331 | The same agreement holds for one sheet. |
| Process.ProcessSheetsAgrees | excel_to_sta_customized.py:385-386 | The same agreement holds for the sheet loop, in workbook order. |
| Process.ProcessSheetsKeepsInv | excel_to_sta_customized.py:385-386 | The sheet loop keeps the invariant, and every Thing it registers gets its Location. |
| Process.MissingTimestampRecordsNothing | excel_to_sta_customized.py:291-303 | A row with a missing timestamp succeeds and registers its station's Thing and that Thing's Location, but records no Observation. |
| Assembly.ObservationsForMembers | final_version_6things.py:257-263 | A Datastream's list holds exactly the recorded Observations whose back-reference is its id, with the back-reference removed. |
| Assembly.ObservationsForAppend | final_version_6things.py:257-263 | The per-Datastream filter keeps recording order. |
| Assembly.DatastreamsOfExactly | final_version_6things.py:251-268 | In the intended document, a Thing's Datastreams are exactly those whose owner is that Thing, each with its own Observations. |
| Assembly.DatastreamsAsWrittenExactly | final_version_6things.py:252-253 | As written, a Thing lists exactly the Datastreams whose key starts with the Thing's id. |
| Assembly.Assemble | final_version_6things.py:243-273 | The intended document lists the Things in insertion order. Each comes with its Location and its own Datastreams. |
| Assembly.AssembleAsWritten | excel_to_sta_customized.py:344-370 | The as-written document lists the Things in insertion order. Each comes with the Location stored for it, under the id the converter computed, and the Datastreams its key-prefix test selects. |
| Assembly.AssembleLocations | excel_to_sta_customized.py:348-349 | In the intended document, every Thing entry carries exactly one Location: the one registered under its id, at (0, 0), named `location_` plus the Thing key. |
| Assembly.LocationIdsDistinct | excel_to_sta_customized.py:128 | In the intended document, different Things never share a Location id. |
| Assembly.AssembleConservesObservations | final_version_6things.py:257-263 | In the intended document, the Observations nested across all Datastreams number exactly the recorded Observations. |
| Assembly.StationKeyedTotal | excel_to_sta_customized.py:353-360 | As written, the station-keyed document nests (number of listed Datastreams) × (number of Observations) Observations. |
| Assembly.StationKeyedObservationsEverywhere | excel_to_sta_customized.py:353-360 | As written, every station-keyed Datastream entry holds all recorded Observations, in recording order, without the Datastream reference. So it holds its own Observations and every other Datastream's too. |
| Assembly.LegendKeyedAgreesWhenPrefixFree | final_version_6things.py:252-253 | The legend-keyed document as written equals the intended one when no Datastream key starts with the id of a Thing other than its owner, and every stored Location already has the intended id. |
| Transform.Materialize | excel_to_sta_customized.py:374-389 | A conversion that succeeds leaves the dictionaries satisfying the invariant, with every Thing's Location registered. |
| Transform.Transform | excel_to_sta_customized.py:374-391 | The conversion yields a document exactly when the sheet loop raises nothing. |
| Transform.TransformAsWritten | final_version_6things.py:77-275 | The as-written conversion yields a document exactly when the sheet loop raises nothing. |
| Transform.TransformAgreesWithPivot | final_version_6things.py:77-237 | The conversion fails exactly when the reference reading of the workbook fails, with the same error. Otherwise it records exactly the reference readings, tagged, and the document nests each of them exactly once. |
| Transform.TransformShape | final_version_6things.py:243-273 | Every Thing in the document has exactly one Location at (0, 0) and exactly its own Datastreams. |
| Findings.StationKeyedRepeatsObservations | excel_to_sta_customized.py:353-360 | Once a Thing lists two Datastreams and anything is recorded, the station-keyed document nests at least twice as many Observations as were recorded. |
| Findings.StationKeyedRepeatsForTwoCodes | excel_to_sta_customized.py:353-360 | Once a station has Datastreams for two different codes and anything is recorded, the station-keyed document nests at least twice as many Observations as were recorded. |
| Findings.OwnKeys | excel_to_sta_customized.py:204 | A station's Datastream keys all start with its Thing id, and different codes give different keys. So two measured codes make two listed Datastreams. |
| Findings.TenStartsWithOne | final_version_6things.py:210 | At the same site, every Datastream key of station "10" starts with the Thing id of station "1", in both converters. |
| Findings.PrefixCollision | final_version_6things.py:252-253 | As written, station "10"'s Datastream is listed under station "1" too. |
| Findings.PrefixCollisionIntended | final_version_6things.py:252-253 | In the intended document, station "1" does not list station "10"'s Datastream. |
| Findings.StationLocationIdTruncates | excel_to_sta_customized.py:128 | `split('_')[1]` keeps only the station code's text before its own first underscore. |
| Findings.StationLocationIdCollision | excel_to_sta_customized.py:128 | Stations "MS_1" and "MS_2" both get the Location id "location_MS". |
| Findings.StationLocationIdIntended | excel_to_sta_customized.py:128 | The intended Location ids of "MS_1" and "MS_2" differ. |
| Findings.LegendLocationIdDropsInnerTag | final_version_6things.py:135 | `replace('thing_', '')` also deletes a "thing_" inside the Thing key. When the parts around it contain no `t`, the key with it and the same key without it get the same Location id. |
| Findings.LegendLocationIdCollision | final_version_6things.py:135 | The Things keyed "U__thing_1" and "U__1" both get the Location id "location_U__1". |
| Findings.LegendLocationIdIntended | final_version_6things.py:135 | The intended Location ids of those two Things differ. |

## Left out

- Reading the workbook (`pd.read_excel`), writing JSON, the `main` functions and the console summaries. These are file I/O. The workbook is a parameter, and the document is the result.
- Float parsing, `str()` of numbers and dates, and `isoformat()`. A cell carries its `str()` text, its numeric value if `float()` accepts it, and its ISO string if it is a datetime. These conversions are taken as given, not computed.
- The order of steps inside a failing cell. The converters create the Datastream before `float(value)` raises. The model fails before creating it. Since a failure aborts the whole run and no document is produced, the difference cannot be observed.
- The Datastream id on each Observation. The model records it for both converters, because the intended document groups Observations by it. The station-keyed converter never stores it, and neither converter's document contains it.
- A header that is not text. pandas passes a numeric or datetime header through unchanged, and `column.startswith("Unnamed")` then raises an AttributeError (excel_to_sta_customized.py:312, final_version_6things.py:165). The model takes every header as text, so it does not model that error.
- The `thing` and `code` fields of a Datastream entry in both documents. The model keeps them to match owners; neither converter emits them.
- Legend.RowSite: the site holds the text of the HMS and Bemerkung cells. The legend-keyed converter stores the raw cell values and emits them as the Thing's `properties.hms` and `properties.bemerkung` (final_version_6things.py:36-37, 125-126), so a numeric HMS is a JSON number there. The model does not keep the raw type, since every other use formats the value as text.
- Duplicate headers. pandas renames a repeated header (`TEMP`, `TEMP.1`). The model does not, and its row lookup reads the first column of a name.
- The `EntityType` and `ObservationType` enums as Python classes, the unused `sheet_descriptions`, and the `uuid` import. The observation type is a Dafny datatype with its fixed URI.
- The synthetic-workbook generator and the end-to-end driver script. They generate random data and print counts, and contain no conversion logic. The normalized multi-table joiner is not part of this model.
- Materializer.CreateDatastream: for the station-keyed converter it does not state that Sensor and ObservedProperty are registered. Only the invariant lemma `Materializer.CreateDatastreamKeepsInv` states it, because the source creates them only when the Datastream is new.
- Assembly.AssembleLocations: states the single Location only for states where every Thing's Location is registered. Every state the conversion reaches has this (`Transform.Materialize`).

## Findings

| source | as written | input that shows it | evidently intended | confidence | as-written member | corrected member |
|---|---|---|---|---|---|---|
| excel_to_sta_customized.py:359-360 | Every recorded Observation is appended under every Datastream a Thing lists. | One station with a `TEMP` and a `RH` column and one timestamped row: 2 Observations recorded, 4 nested. | Each Datastream nests only its own Observations, so the document holds each Observation once. | not executed | Findings.StationKeyedRepeatsForTwoCodes | Assembly.AssembleConservesObservations |
| final_version_6things.py:252-253 | A Datastream is listed under every Thing whose id its key starts with (the same test is at excel_to_sta_customized.py:354). | Stations "1" and "10" at one site: station 10's Datastream `thing_..._10_TEMP...` also appears under station 1. | A Thing lists only the Datastreams it owns. | not executed | Findings.PrefixCollision | Findings.PrefixCollisionIntended |
| excel_to_sta_customized.py:128 | The Location id is `location_` plus the second `_`-separated field of the Thing id. | Stations "MS_1" and "MS_2" both get "location_MS". | One Location id per Thing: `location_` plus the station code. | not executed | Findings.StationLocationIdCollision | Findings.StationLocationIdIntended |
| final_version_6things.py:135 | The Location id removes every "thing_" from the Thing id, not just the prefix. | Station "thing_1" and station "1", both at site ("U", ""), both get "location_U__1". | One Location id per Thing: `location_` plus the Thing key. | not executed | Findings.LegendLocationIdCollision | Findings.LegendLocationIdIntended |

=== FILE: assembly.dfy ===
/**
 * `construct_nested_structure` and its inline twin: the registries and the
 * Observation list become the nested document, one entry per registered Thing
 * in insertion order, each with its Location and its Datastreams, each
 * Datastream with its Observations.
 *
 * `Assemble` is the intended association (a Datastream belongs to the Thing whose
 * key it was created for, an Observation to the Datastream it names);
 * `AssembleAsWritten` is the converters' own, by key prefix and, in the
 * station-keyed converter, with every Observation under every Datastream.
 */
module Assembly {
  import opened Wrappers
  import opened Strings
  import opened Table
  import opened Registry
  import opened Entities
  import opened Materializer

  /**
   * An Observation as nested under a Datastream: no "Datastream" back-reference, since
   * the station-keyed converter never writes one and the legend-keyed one pops it.
   */
  datatype ObservationOut = ObservationOut(phenomenonTime: Cell, resultTime: Cell, result: real)

  /**
   * A Datastream entry. An empty `observations` is the absent "Observations" key
   * (`if datastream_observations:`). The Datastream's `thing` and `code` are model-only
   * fields that the converters' dictionaries do not carry.
   */
  datatype DatastreamOut = DatastreamOut(datastream: Datastream, observations: seq<ObservationOut>)

  /** A Thing entry. An empty `locations` or `datastreams` is the absent key. */
  datatype ThingOut = ThingOut(thing: Thing, locations: seq<Location>, datastreams: seq<DatastreamOut>)

  /** The "Things" list of the result. */
  type Document = seq<ThingOut>

  /**
   * A recorded Observation as it appears in the document: `obs_copy.pop("Datastream", None)`
   * in the legend-keyed converter; in the station-keyed one the dictionary never had the key.
   */
  function Strip(o: Observation): ObservationOut {
    ObservationOut(o.phenomenonTime, o.resultTime, o.result)
  }

  /** Every key listed in the Thing and Datastream orders is stored, as in any dict's `items()`. */
  ghost predicate Listed(s: State) {
    && (forall k :: k in s.things.order ==> k in s.things.entries)
    && (forall k :: k in s.datastreams.order ==> k in s.datastreams.entries)
  }

  // --------------------------------------------------------------- Observations

  /** The Observations recorded for the Datastream `id`, in recording order, without their back-reference. */
  function ObservationsFor(observations: seq<Observation>, id: string): (r: seq<ObservationOut>)
    ensures |r| <= |observations|
  {
    if |observations| == 0 then []
    else
      (if observations[0].datastream == id then [Strip(observations[0])] else [])
      + ObservationsFor(observations[1..], id)
  }

  /** Filtering distributes over concatenation: later Observations come later. */
  lemma {:induction false} ObservationsForAppend(a: seq<Observation>, b: seq<Observation>, id: string)
    ensures ObservationsFor(a + b, id) == ObservationsFor(a, id) + ObservationsFor(b, id)
    decreases |a|
  {
    if |a| > 0 {
      var head := if a[0].datastream == id then [Strip(a[0])] else [];
      assert (a + b)[0] == a[0];
      assert (a + b)[1..] == a[1..] + b;
      ObservationsForAppend(a[1..], b, id);
      calc {
        ObservationsFor(a + b, id);
        head + ObservationsFor(a[1..] + b, id);
        head + (ObservationsFor(a[1..], id) + ObservationsFor(b, id));
        (head + ObservationsFor(a[1..], id)) + ObservationsFor(b, id);
      }
    } else {
      assert a + b == b;
    }
  }

  /** The Observations kept for `id` are exactly those that name it, and each is kept as it was recorded. */
  lemma {:induction false} ObservationsForMembers(observations: seq<Observation>, id: string)
    ensures forall x :: x in ObservationsFor(observations, id) <==>
              exists i :: 0 <= i < |observations| && observations[i].datastream == id && Strip(observations[i]) == x
    decreases |observations|
  {
    if |observations| > 0 {
      var rest := observations[1..];
      ObservationsForMembers(rest, id);
      forall x ensures x in ObservationsFor(observations, id) <==>
                exists i :: 0 <= i < |observations| && observations[i].datastream == id && Strip(observations[i]) == x
      {
        if exists i :: 0 <= i < |observations| && observations[i].datastream == id && Strip(observations[i]) == x {
          var i :| 0 <= i < |observations| && observations[i].datastream == id && Strip(observations[i]) == x;
          if i > 0 {
            assert rest[i - 1] == observations[i];
          }
        }
        if x in ObservationsFor(rest, id) {
          var i :| 0 <= i < |rest| && rest[i].datastream == id && Strip(rest[i]) == x;
          assert observations[i + 1] == rest[i];
        }
      }
    }
  }

  /** Every recorded Observation, in recording order, unfiltered. */
  function CopyAll(observations: seq<Observation>): (r: seq<ObservationOut>)
    ensures |r| == |observations|
    ensures forall i :: 0 <= i < |observations| ==> r[i] == Strip(observations[i])
  {
    seq(|observations|, i requires 0 <= i < |observations| => Strip(observations[i]))
  }

  // --------------------------------------------------------------- Datastreams

  /**
   * The Datastream entries of the Thing keyed `tk`, as intended: of the Datastreams
   * stored under `keys`, those created for `tk`, in key order, each with its own
   * Observations.
   */
  function DatastreamsOf(s: State, tk: string, keys: seq<string>): (r: seq<DatastreamOut>)
    requires forall k :: k in keys ==> k in s.datastreams.entries
    ensures |r| <= |keys|
    ensures forall i :: 0 <= i < |r| ==>
              r[i].datastream.thing == tk && r[i].observations == ObservationsFor(s.observations, r[i].datastream.id)
  {
    if |keys| == 0 then []
    else
      var d := s.datastreams.entries[keys[0]];
      var rest := DatastreamsOf(s, tk, keys[1..]);
      if d.thing == tk then
        var r := [DatastreamOut(d, ObservationsFor(s.observations, d.id))] + rest;
        assert forall i :: 1 <= i < |r| ==> r[i] == rest[i - 1];
        r
      else rest
  }

  /** `d` is the entry of the Datastream stored under `k`, created for the Thing keyed `tk`. */
  ghost predicate OwnedVia(s: State, tk: string, k: string, d: DatastreamOut)
    requires k in s.datastreams.entries
  {
    var stored := s.datastreams.entries[k];
    stored.thing == tk && d == DatastreamOut(stored, ObservationsFor(s.observations, stored.id))
  }

  ghost predicate Owned(s: State, tk: string, keys: seq<string>, d: DatastreamOut)
    requires forall k :: k in keys ==> k in s.datastreams.entries
  {
    exists k :: k in keys && OwnedVia(s, tk, k, d)
  }

  /**
   * The entries of a Thing are exactly its own Datastreams: each one listed was stored
   * under one of `keys`, and each one stored under `keys` for `tk` is listed.
   */
  lemma {:induction false} DatastreamsOfExactly(s: State, tk: string, keys: seq<string>)
    requires forall k :: k in keys ==> k in s.datastreams.entries
    ensures forall d :: d in DatastreamsOf(s, tk, keys) <==> Owned(s, tk, keys, d)
    decreases |keys|
  {
    if |keys| > 0 {
      var rest := keys[1..];
      DatastreamsOfExactly(s, tk, rest);
      var d0 := s.datastreams.entries[keys[0]];
      var head := DatastreamOut(d0, ObservationsFor(s.observations, d0.id));
      forall d ensures Owned(s, tk, keys, d) <==> (d0.thing == tk && d == head) || Owned(s, tk, rest, d) {
        if Owned(s, tk, keys, d) {
          var k :| k in keys && OwnedVia(s, tk, k, d);
          if k != keys[0] {
            var j :| 0 <= j < |keys| && keys[j] == k;
            assert rest[j - 1] == k;
          }
        }
        if Owned(s, tk, rest, d) {
          var k :| k in rest && OwnedVia(s, tk, k, d);
          var j :| 0 <= j < |rest| && rest[j] == k;
          assert keys[j + 1] == k;
        }
        if d0.thing == tk && d == head {
          assert OwnedVia(s, tk, keys[0], d);
        }
      }
    }
  }

  /**
   * The Observations the converters nest under the Datastream `d`: in the station-keyed
   * converter all of them, unfiltered.
   */
  function ObservationsAsWritten(v: Variant, s: State, d: Datastream): seq<ObservationOut> {
    match v
    case StationKeyed => CopyAll(s.observations)
    case LegendKeyed => ObservationsFor(s.observations, d.id)
  }

  /** The Datastream entries as the converters select them: every key that starts with the Thing's id. */
  function DatastreamsAsWritten(v: Variant, s: State, thingId: string, keys: seq<string>): (r: seq<DatastreamOut>)
    requires forall k :: k in keys ==> k in s.datastreams.entries
    ensures |r| <= |keys|
    ensures forall i :: 0 <= i < |r| ==> r[i].observations == ObservationsAsWritten(v, s, r[i].datastream)
  {
    if |keys| == 0 then []
    else
      var d := s.datastreams.entries[keys[0]];
      var rest := DatastreamsAsWritten(v, s, thingId, keys[1..]);
      if StartsWith(keys[0], thingId) then
        var r := [DatastreamOut(d, ObservationsAsWritten(v, s, d))] + rest;
        assert forall i :: 1 <= i < |r| ==> r[i] == rest[i - 1];
        r
      else rest
  }

  /** `d` is the converters' entry for the Datastream stored under `k`, selected because `k` starts with `thingId`. */
  ghost predicate SelectedVia(v: Variant, s: State, thingId: string, k: string, d: DatastreamOut)
    requires k in s.datastreams.entries
  {
    var stored := s.datastreams.entries[k];
    StartsWith(k, thingId) && d == DatastreamOut(stored, ObservationsAsWritten(v, s, stored))
  }

  ghost predicate Selected(v: Variant, s: State, thingId: string, keys: seq<string>, d: DatastreamOut)
    requires forall k :: k in keys ==> k in s.datastreams.entries
  {
    exists k :: k in keys && SelectedVia(v, s, thingId, k, d)
  }

  /** The converters list, under a Thing, the Datastream of every key that starts with the Thing's id, and no other. */
  lemma {:induction false} DatastreamsAsWrittenExactly(v: Variant, s: State, thingId: string, keys: seq<string>)
    requires forall k :: k in keys ==> k in s.datastreams.entries
    ensures forall d :: d in DatastreamsAsWritten(v, s, thingId, keys) <==> Selected(v, s, thingId, keys, d)
    decreases |keys|
  {
    if |keys| > 0 {
      var rest := keys[1..];
      DatastreamsAsWrittenExactly(v, s, thingId, rest);
      var d0 := s.datastreams.entries[keys[0]];
      var head := DatastreamOut(d0, ObservationsAsWritten(v, s, d0));
      forall d ensures Selected(v, s, thingId, keys, d) <==>
                (StartsWith(keys[0], thingId) && d == head) || Selected(v, s, thingId, rest, d) {
        if Selected(v, s, thingId, keys, d) {
          var k :| k in keys && SelectedVia(v, s, thingId, k, d);
          if k != keys[0] {
            var j :| 0 <= j < |keys| && keys[j] == k;
            assert rest[j - 1] == k;
          }
        }
        if Selected(v, s, thingId, rest, d) {
          var k :| k in rest && SelectedVia(v, s, thingId, k, d);
          var j :| 0 <= j < |rest| && rest[j] == k;
          assert keys[j + 1] == k;
        }
        if StartsWith(keys[0], thingId) && d == head {
          assert SelectedVia(v, s, thingId, keys[0], d);
        }
      }
    }
  }

  // -------------------------------------------------------------------- Things

  /** The Location entry of a Thing: the one stored under its id, if any. */
  function LocationsOf(s: State, thing: Thing): seq<Location> {
    if thing.id in s.locations.entries then [s.locations.entries[thing.id]] else []
  }

  /** The Location entry of the Thing keyed `tk` as intended: its stored Location, named `location_` + `tk`. */
  function IntendedLocationsOf(s: State, tk: string, thing: Thing): seq<Location> {
    if thing.id in s.locations.entries then [s.locations.entries[thing.id].(id := LocationId(tk))] else []
  }

  function ThingOutFor(s: State, tk: string): ThingOut
    requires tk in s.things.entries && Listed(s)
  {
    var thing := s.things.entries[tk];
    ThingOut(thing, IntendedLocationsOf(s, tk, thing), DatastreamsOf(s, tk, s.datastreams.order))
  }

  function ThingOutAsWritten(v: Variant, s: State, tk: string): ThingOut
    requires tk in s.things.entries && Listed(s)
  {
    var thing := s.things.entries[tk];
    ThingOut(thing, LocationsOf(s, thing), DatastreamsAsWritten(v, s, thing.id, s.datastreams.order))
  }

  /** The entries of the Things keyed `ks`, in that order. */
  function AssembleFrom(s: State, ks: seq<string>): (doc: Document)
    requires Listed(s) && forall k :: k in ks ==> k in s.things.entries
    ensures |doc| == |ks|
    ensures forall i :: 0 <= i < |ks| ==> doc[i] == ThingOutFor(s, ks[i])
  {
    if |ks| == 0 then []
    else
      var doc := [ThingOutFor(s, ks[0])] + AssembleFrom(s, ks[1..]);
      assert forall i :: 1 <= i < |ks| ==> ks[i] == ks[1..][i - 1];
      doc
  }

  function AssembleAsWrittenFrom(v: Variant, s: State, ks: seq<string>): (doc: Document)
    requires Listed(s) && forall k :: k in ks ==> k in s.things.entries
    ensures |doc| == |ks|
    ensures forall i :: 0 <= i < |ks| ==> doc[i] == ThingOutAsWritten(v, s, ks[i])
  {
    if |ks| == 0 then []
    else
      var doc := [ThingOutAsWritten(v, s, ks[0])] + AssembleAsWrittenFrom(v, s, ks[1..]);
      assert forall i :: 1 <= i < |ks| ==> ks[i] == ks[1..][i - 1];
      doc
  }

  /** The document as intended: the Things in insertion order, each with exactly its own Datastreams. */
  function Assemble(s: State): (doc: Document)
    requires Listed(s)
    ensures |doc| == |s.things.order|
    ensures forall i :: 0 <= i < |doc| ==>
              && doc[i].thing == s.things.entries[s.things.order[i]]
              && doc[i].locations == IntendedLocationsOf(s, s.things.order[i], doc[i].thing)
              && doc[i].datastreams == DatastreamsOf(s, s.things.order[i], s.datastreams.order)
  {
    AssembleFrom(s, s.things.order)
  }

  /** The document as the converters build it. */
  function AssembleAsWritten(v: Variant, s: State): (doc: Document)
    requires Listed(s)
    ensures |doc| == |s.things.order|
    ensures forall i :: 0 <= i < |doc| ==>
              && doc[i].thing == s.things.entries[s.things.order[i]]
              && doc[i].locations == LocationsOf(s, doc[i].thing)
              && doc[i].datastreams == DatastreamsAsWritten(v, s, doc[i].thing.id, s.datastreams.order)
  {
    AssembleAsWrittenFrom(v, s, s.things.order)
  }

  // ------------------------------------------------------------------ Locations

  /**
   * With every Thing's Location registered, each entry carries exactly one Location:
   * the one stored for it, at (0, 0), under the id `location_` + the Thing's key.
   */
  lemma AssembleLocations(s: State)
    requires Inv(s) && Listed(s) && LocationsComplete(s)
    ensures var doc := Assemble(s);
            forall i :: 0 <= i < |doc| ==>
              && |doc[i].locations| == 1
              && doc[i].locations[0] == s.locations.entries[ThingId(s.things.order[i])].(id := LocationId(s.things.order[i]))
              && doc[i].locations[0].coordinates == (0, 0)
  {
    var doc := Assemble(s);
    forall i | 0 <= i < |doc|
      ensures |doc[i].locations| == 1
      ensures doc[i].locations[0] == s.locations.entries[ThingId(s.things.order[i])].(id := LocationId(s.things.order[i]))
      ensures doc[i].locations[0].coordinates == (0, 0)
    {
      var tk := s.things.order[i];
      assert s.things.entries[tk].id == ThingId(tk);
      assert ThingId(tk) in s.locations.entries;
    }
  }

  /** In the intended document, different Things never share a Location id. */
  lemma LocationIdsDistinct(s: State)
    requires Inv(s) && Listed(s) && LocationsComplete(s)
    ensures var doc := Assemble(s);
            forall i, j :: 0 <= i < |doc| && 0 <= j < |doc| && i != j ==>
              doc[i].locations[0].id != doc[j].locations[0].id
  {
    AssembleLocations(s);
    var doc := Assemble(s);
    forall i, j | 0 <= i < |doc| && 0 <= j < |doc| && i != j
      ensures doc[i].locations[0].id != doc[j].locations[0].id
    {
      IdsInjective(s.things.order[i], s.things.order[j]);
    }
  }

  // -------------------------------------------------------------- conservation

  /** How many of `observations` name a Datastream id in `ids`. */
  function CountFor(observations: seq<Observation>, ids: set<string>): (n: nat)
    ensures n <= |observations|
  {
    if |observations| == 0 then 0
    else (if observations[0].datastream in ids then 1 else 0) + CountFor(observations[1..], ids)
  }

  lemma {:induction false} CountForUnion(observations: seq<Observation>, a: set<string>, b: set<string>)
    requires a !! b
    ensures CountFor(observations, a + b) == CountFor(observations, a) + CountFor(observations, b)
    decreases |observations|
  {
    if |observations| > 0 {
      CountForUnion(observations[1..], a, b);
    }
  }

  lemma {:induction false} CountForAll(observations: seq<Observation>, ids: set<string>)
    requires forall i :: 0 <= i < |observations| ==> observations[i].datastream in ids
    ensures CountFor(observations, ids) == |observations|
    decreases |observations|
  {
    if |observations| > 0 {
      assert forall i :: 1 <= i < |observations| ==> observations[1..][i - 1] == observations[i];
      CountForAll(observations[1..], ids);
    }
  }

  lemma {:induction false} CountForNone(observations: seq<Observation>)
    ensures CountFor(observations, {}) == 0
    decreases |observations|
  {
    if |observations| > 0 {
      CountForNone(observations[1..]);
    }
  }

  lemma {:induction false} ObservationsForCount(observations: seq<Observation>, id: string)
    ensures |ObservationsFor(observations, id)| == CountFor(observations, {id})
    decreases |observations|
  {
    if |observations| > 0 {
      ObservationsForCount(observations[1..], id);
    }
  }

  function ObservationCount(datastreams: seq<DatastreamOut>): nat {
    if |datastreams| == 0 then 0 else |datastreams[0].observations| + ObservationCount(datastreams[1..])
  }

  /** The number of Observations a document nests, over all its Things and Datastreams. */
  function TotalObservations(doc: Document): nat {
    if |doc| == 0 then 0 else ObservationCount(doc[0].datastreams) + TotalObservations(doc[1..])
  }

  /** The ids of the Datastreams stored under `keys` that were created for the Thing keyed `tk`. */
  ghost function OwnedIn(s: State, tk: string, keys: seq<string>): set<string> {
    set k | k in keys && k in s.datastreams.entries && s.datastreams.entries[k].thing == tk :: DatastreamId(k)
  }

  /** The ids of the listed Datastreams created for any of the Things keyed `ks`. */
  ghost function OwnedByAny(s: State, ks: seq<string>): set<string> {
    set k | k in s.datastreams.order && k in s.datastreams.entries && s.datastreams.entries[k].thing in ks
      :: DatastreamId(k)
  }

  ghost predicate Distinct(keys: seq<string>) {
    forall i, j :: 0 <= i < j < |keys| ==> keys[i] != keys[j]
  }

  lemma {:induction false} DatastreamsOfTotal(s: State, tk: string, keys: seq<string>)
    requires forall k :: k in keys ==> k in s.datastreams.entries
    requires Distinct(keys) && DatastreamIdsMatch(s.datastreams)
    ensures ObservationCount(DatastreamsOf(s, tk, keys)) == CountFor(s.observations, OwnedIn(s, tk, keys))
    decreases |keys|
  {
    if |keys| > 0 {
      var k0 := keys[0];
      var rest := keys[1..];
      assert Distinct(rest) by {
        forall i, j | 0 <= i < j < |rest| ensures rest[i] != rest[j] {
          assert rest[i] == keys[i + 1] && rest[j] == keys[j + 1];
        }
      }
      DatastreamsOfTotal(s, tk, rest);
      var d := s.datastreams.entries[k0];
      if d.thing == tk {
        var head := DatastreamOut(d, ObservationsFor(s.observations, d.id));
        var tail := DatastreamsOf(s, tk, rest);
        assert ([head] + tail)[1..] == tail;
        assert OwnedIn(s, tk, keys) == {DatastreamId(k0)} + OwnedIn(s, tk, rest);
        assert DatastreamId(k0) !in OwnedIn(s, tk, rest) by {
          if DatastreamId(k0) in OwnedIn(s, tk, rest) {
            var k :| k in rest && k in s.datastreams.entries && s.datastreams.entries[k].thing == tk
                     && DatastreamId(k) == DatastreamId(k0);
            var j :| 0 <= j < |rest| && rest[j] == k;
            assert keys[j + 1] == k;
            IdsInjective(k, k0);
          }
        }
        CountForUnion(s.observations, {DatastreamId(k0)}, OwnedIn(s, tk, rest));
        ObservationsForCount(s.observations, d.id);
      } else {
        assert OwnedIn(s, tk, keys) == OwnedIn(s, tk, rest);
      }
    } else {
      assert OwnedIn(s, tk, keys) == {};
      CountForNone(s.observations);
    }
  }

  lemma {:induction false} AssembleFromTotal(s: State, ks: seq<string>)
    requires Listed(s) && forall k :: k in ks ==> k in s.things.entries
    requires Distinct(ks) && Distinct(s.datastreams.order) && DatastreamIdsMatch(s.datastreams)
    ensures TotalObservations(AssembleFrom(s, ks)) == CountFor(s.observations, OwnedByAny(s, ks))
    decreases |ks|
  {
    if |ks| > 0 {
      var tk := ks[0];
      var rest := ks[1..];
      assert Distinct(rest) by {
        forall i, j | 0 <= i < j < |rest| ensures rest[i] != rest[j] {
          assert rest[i] == ks[i + 1] && rest[j] == ks[j + 1];
        }
      }
      AssembleFromTotal(s, rest);
      DatastreamsOfTotal(s, tk, s.datastreams.order);
      var doc := AssembleFrom(s, ks);
      assert doc[1..] == AssembleFrom(s, rest);
      var mine := OwnedIn(s, tk, s.datastreams.order);
      var others := OwnedByAny(s, rest);
      assert OwnedByAny(s, ks) == mine + others by {
        forall id | id in OwnedByAny(s, ks) ensures id in mine + others {
          var k :| k in s.datastreams.order && k in s.datastreams.entries && s.datastreams.entries[k].thing in ks
                   && id == DatastreamId(k);
          if s.datastreams.entries[k].thing != tk {
            var j :| 0 <= j < |ks| && ks[j] == s.datastreams.entries[k].thing;
            assert rest[j - 1] == ks[j];
          }
        }
      }
      assert mine !! others by {
        forall id | id in mine ensures id !in others {
          var k :| k in s.datastreams.order && k in s.datastreams.entries && s.datastreams.entries[k].thing == tk
                   && id == DatastreamId(k);
          if id in others {
            var k' :| k' in s.datastreams.order && k' in s.datastreams.entries
                      && s.datastreams.entries[k'].thing in rest && id == DatastreamId(k');
            if k != k' {
              IdsInjective(k, k');
            }
          }
        }
      }
      CountForUnion(s.observations, mine, others);
    } else {
      assert OwnedByAny(s, ks) == {};
      CountForNone(s.observations);
    }
  }

  /**
   * The intended document loses and repeats no Observation: every recorded
   * Observation is nested exactly once, under the Datastream it names.
   */
  lemma AssembleConservesObservations(s: State)
    requires Inv(s)
    ensures Listed(s) && TotalObservations(Assemble(s)) == |s.observations|
  {
    InvIdsMatch(s);
    AssembleFromTotal(s, s.things.order);
    var ids := OwnedByAny(s, s.things.order);
    forall i | 0 <= i < |s.observations| ensures s.observations[i].datastream in ids {
      assert RefersTo(s.observations[i], s.datastreams);
      var k :| k in s.datastreams.entries && s.observations[i].datastream == DatastreamId(k);
      assert DatastreamWellFormed(s.datastreams.entries[k], k, s.things, s.sensors, s.observedProperties);
      assert s.datastreams.entries[k].thing in s.things.order;
      assert k in s.datastreams.order;
    }
    CountForAll(s.observations, ids);
  }
  // ------------------------------------------------------ the converters' own

  /** How many Datastream entries a document lists, over all its Things. */
  function DatastreamCount(doc: Document): nat {
    if |doc| == 0 then 0 else |doc[0].datastreams| + DatastreamCount(doc[1..])
  }

  /** Under every listed Datastream the station-keyed converter nests every Observation. */
  lemma {:induction false} StationKeyedEntriesTotal(s: State, thingId: string, keys: seq<string>)
    requires forall k :: k in keys ==> k in s.datastreams.entries
    ensures var r := DatastreamsAsWritten(StationKeyed, s, thingId, keys);
            ObservationCount(r) == |r| * |s.observations|
    decreases |keys|
  {
    if |keys| > 0 {
      StationKeyedEntriesTotal(s, thingId, keys[1..]);
      var r := DatastreamsAsWritten(StationKeyed, s, thingId, keys);
      var rest := DatastreamsAsWritten(StationKeyed, s, thingId, keys[1..]);
      if StartsWith(keys[0], thingId) {
        assert r[1..] == rest;
      }
    }
  }

  lemma {:induction false} StationKeyedTotalFrom(s: State, ks: seq<string>)
    requires Listed(s) && forall k :: k in ks ==> k in s.things.entries
    ensures var doc := AssembleAsWrittenFrom(StationKeyed, s, ks);
            TotalObservations(doc) == DatastreamCount(doc) * |s.observations|
    decreases |ks|
  {
    if |ks| > 0 {
      StationKeyedTotalFrom(s, ks[1..]);
      var doc := AssembleAsWrittenFrom(StationKeyed, s, ks);
      var rest := AssembleAsWrittenFrom(StationKeyed, s, ks[1..]);
      assert doc[1..] == rest;
      StationKeyedEntriesTotal(s, doc[0].thing.id, s.datastreams.order);
      Distribute(|doc[0].datastreams|, DatastreamCount(rest), |s.observations|);
    }
  }

  lemma Distribute(x: nat, y: nat, n: nat)
    ensures (x + y) * n == x * n + y * n
  {
  }

  /**
   * The station-keyed converter's document nests every Observation once per listed
   * Datastream: as many copies as it lists Datastreams, not one.
   */
  lemma StationKeyedTotal(s: State)
    requires Listed(s)
    ensures var doc := AssembleAsWritten(StationKeyed, s);
            TotalObservations(doc) == DatastreamCount(doc) * |s.observations|
  {
    StationKeyedTotalFrom(s, s.things.order);
  }

  /**
   * As written, every Datastream entry of the station-keyed document carries all
   * recorded Observations in recording order: its own ones, and every other
   * Datastream's as well.
   */
  lemma StationKeyedObservationsEverywhere(s: State)
    requires Listed(s)
    ensures var doc := AssembleAsWritten(StationKeyed, s);
            forall i, j :: 0 <= i < |doc| && 0 <= j < |doc[i].datastreams| ==>
              && doc[i].datastreams[j].observations == CopyAll(s.observations)
              && forall x :: x in ObservationsFor(s.observations, doc[i].datastreams[j].datastream.id) ==>
                   x in doc[i].datastreams[j].observations
  {
    var doc := AssembleAsWritten(StationKeyed, s);
    forall i, j | 0 <= i < |doc| && 0 <= j < |doc[i].datastreams|
      ensures doc[i].datastreams[j].observations == CopyAll(s.observations)
      ensures forall x :: x in ObservationsFor(s.observations, doc[i].datastreams[j].datastream.id) ==>
                x in doc[i].datastreams[j].observations
    {
      var all := CopyAll(s.observations);
      ObservationsForMembers(s.observations, doc[i].datastreams[j].datastream.id);
      forall x | x in ObservationsFor(s.observations, doc[i].datastreams[j].datastream.id)
        ensures x in all
      {
        var k :| 0 <= k < |s.observations| && s.observations[k].datastream == doc[i].datastreams[j].datastream.id
                 && Strip(s.observations[k]) == x;
        assert all[k] == x;
      }
    }
  }

  /**
   * The key-prefix association is the intended one as long as no Datastream key
   * starts with the id of a Thing other than its owner.
   */
  ghost predicate PrefixFree(s: State) {
    forall k, tk :: k in s.datastreams.entries && tk in s.things.entries ==>
      (StartsWith(k, ThingId(tk)) <==> s.datastreams.entries[k].thing == tk)
  }

  lemma {:induction false} LegendKeyedEntriesAgree(s: State, tk: string, keys: seq<string>)
    requires tk in s.things.entries && PrefixFree(s)
    requires forall k :: k in keys ==> k in s.datastreams.entries
    ensures DatastreamsAsWritten(LegendKeyed, s, ThingId(tk), keys) == DatastreamsOf(s, tk, keys)
    decreases |keys|
  {
    if |keys| > 0 {
      LegendKeyedEntriesAgree(s, tk, keys[1..]);
      assert StartsWith(keys[0], ThingId(tk)) <==> s.datastreams.entries[keys[0]].thing == tk;
    }
  }

  /**
   * Every stored Location already carries the intended id `location_` + its
   * Thing's key; for the legend-keyed converter this holds whenever no Thing key
   * contains "thing_" (see `LegendLocationIdAgrees`).
   */
  ghost predicate LocationsIntended(s: State) {
    forall tk :: tk in s.things.entries && ThingId(tk) in s.locations.entries ==>
      s.locations.entries[ThingId(tk)].id == LocationId(tk)
  }

  /**
   * Without prefix collisions and with the intended Location ids, the legend-keyed
   * converter's document is the intended one; the station-keyed converter's differs
   * whenever a Datastream is listed alongside an Observation of another Datastream.
   */
  lemma LegendKeyedAgreesWhenPrefixFree(s: State)
    requires Listed(s) && ThingIdsMatch(s.things) && PrefixFree(s) && LocationsIntended(s)
    ensures AssembleAsWritten(LegendKeyed, s) == Assemble(s)
  {
    var doc := AssembleAsWritten(LegendKeyed, s);
    var intended := Assemble(s);
    forall i | 0 <= i < |doc| ensures doc[i] == intended[i] {
      var tk := s.things.order[i];
      var thing := s.things.entries[tk];
      assert thing.id == ThingId(tk);
      assert doc[i].locations == intended[i].locations;
      LegendKeyedEntriesAgree(s, tk, s.datastreams.order);
    }
  }
}

=== FILE: catalogue.dfy ===
/**
 * The static unit catalogue both converters carry (`unit_mapping`): measurement
 * code to friendly name, unit symbol and UCUM definition, plus the fixed
 * observation-type URIs.
 */
module Catalogue {
  import opened Wrappers

  datatype Unit = Unit(name: string, symbol: string, definition: string)

  /** The catalogue of known measurement codes, in the converters' order (identical in both). */
  const Units: seq<(string, Unit)> := [
    ("TEMP", Unit("Degree Celsius", "°C", "ucum:Cel")),
    ("WINDR", Unit("Wind Direction", "°", "ucum:deg")),
    ("GLOBAL", Unit("Global Radiation", "W/m²", "ucum:W/m2")),
    ("NIEDER", Unit("Precipitation", "mm", "ucum:mm")),
    ("TEMPHUMUS", Unit("Temperature Humus", "°C", "ucum:Cel")),
    ("TEMP100", Unit("Temperature 100cm", "°C", "ucum:Cel")),
    ("TEMP20", Unit("Temperature 20cm", "°C", "ucum:Cel")),
    ("TEMP200", Unit("Temperature 200cm", "°C", "ucum:Cel")),
    ("TEMP35", Unit("Temperature 35cm", "°C", "ucum:Cel")),
    ("TEMP5", Unit("Temperature 5cm", "°C", "ucum:Cel")),
    ("TEMP50", Unit("Temperature 50cm", "°C", "ucum:Cel")),
    ("TDR20_1", Unit("Soil Moisture 20cm (1)", "%", "ucum:%")),
    ("TDR20_2", Unit("Soil Moisture 20cm (2)", "%", "ucum:%")),
    ("TDR50_1", Unit("Soil Moisture 50cm (1)", "%", "ucum:%")),
    ("TDR50_2", Unit("Soil Moisture 50cm (2)", "%", "ucum:%")),
    ("TDR100_1", Unit("Soil Moisture 100cm (1)", "%", "ucum:%")),
    ("TDR100_2", Unit("Soil Moisture 100cm (2)", "%", "ucum:%")),
    ("%nFK", Unit("Available Field Capacity", "%", "ucum:%")),
    ("TENS20_1", Unit("Soil Tension 20cm (1)", "kPa", "ucum:kPa")),
    ("TENS20_2", Unit("Soil Tension 20cm (2)", "kPa", "ucum:kPa")),
    ("TENS50_1", Unit("Soil Tension 50cm (1)", "kPa", "ucum:kPa")),
    ("TENS50_2", Unit("Soil Tension 50cm (2)", "kPa", "ucum:kPa")),
    ("TENS100_1", Unit("Soil Tension 100cm (1)", "kPa", "ucum:kPa")),
    ("TENS100_2", Unit("Soil Tension 100cm (2)", "kPa", "ucum:kPa"))
  ]

  /** The unit an unknown code falls back to. */
  const UnknownUnit: Unit := Unit("Unknown", "", "ucum:")

  /** `table.get(code)`: the unit listed for `code`, searched in order. */
  function Lookup(table: seq<(string, Unit)>, code: string): (r: Option<Unit>)
    ensures r.None? <==> forall i :: 0 <= i < |table| ==> table[i].0 != code
    ensures r.Some? ==> exists i :: 0 <= i < |table| && table[i] == (code, r.value)
  {
    if |table| == 0 then None
    else if table[0].0 == code then Some(table[0].1)
    else
      var r := Lookup(table[1..], code);
      assert forall i :: 1 <= i < |table| ==> table[i] == table[1..][i - 1];
      r
  }

  /** Whether the catalogue lists `code`. */
  predicate Known(code: string) {
    Lookup(Units, code).Some?
  }

  /** `unit_mapping.get(code, {"name": "Unknown", "symbol": "", "definition": "ucum:"})`. */
  function UnitOf(code: string): Unit {
    match Lookup(Units, code)
    case Some(u) => u
    case None => UnknownUnit
  }

  /** `unit_mapping.get(code, {}).get("name", code)`: the catalogue name, or the code itself. */
  function FriendlyName(code: string): string {
    match Lookup(Units, code)
    case Some(u) => u.name
    case None => code
  }

  /** The four observation types of the OGC O&M model, one fixed URI each. */
  datatype ObservationType = Measurement | CategoryObservation | CountObservation | TruthObservation {
    function Uri(): string {
      match this
      case Measurement => "http://www.opengis.net/def/observationType/OGC-OM/2.0/OM_Measurement"
      case CategoryObservation => "http://www.opengis.net/def/observationType/OGC-OM/2.0/OM_CategoryObservation"
      case CountObservation => "http://www.opengis.net/def/observationType/OGC-OM/2.0/OM_CountObservation"
      case TruthObservation => "http://www.opengis.net/def/observationType/OGC-OM/2.0/OM_TruthObservation"
    }
  }
}

=== FILE: entities.dfy ===
/**
 * The SensorThings entities and the rules that name them: natural keys,
 * derived `@iot.id`s and the attribute values each converter fills in when it
 * first creates an entity.
 */
module Entities {
  import opened Wrappers
  import opened Strings
  import opened Table
  import opened Catalogue

  /**
   * Which converter is modelled. `StationKeyed` is the `SensorThingsTransformer`
   * class (Things keyed by station code alone); `LegendKeyed` is the
   * `excel_to_sensorthings` function that keys Things and Datastreams by the
   * legend's site label and remark as well.
   */
  datatype Variant = StationKeyed | LegendKeyed

  /** A legend entry for a station: its site label (HMS) and remark (Bemerkung). */
  datatype Site = Site(hms: string, bemerkung: string)

  /** The legend entry assumed for a station the legend does not list. */
  const UnknownSite: Site := Site("Unknown", "")

  /** A monitoring station. `site` is recorded by the legend-keyed converter only. */
  datatype Thing = Thing(
    id: string,
    name: string,
    description: string,
    idMs: string,
    category: string,
    site: Option<Site>)

  /** A station position; the converters never know it and always write the point (0, 0). */
  datatype Location = Location(
    id: string,
    name: string,
    description: string,
    encodingType: string,
    coordinates: (int, int))

  datatype ObservedProperty = ObservedProperty(id: string, name: string, description: string, definition: string)

  datatype Sensor = Sensor(id: string, name: string, description: string, encodingType: string, metadata: string)

  /**
   * A time series of one Thing for one measurement code. `thing` (the owning
   * Thing's natural key) and `code` are the parts the registry key was built
   * from; they are kept so that assembly can match owners exactly.
   */
  datatype Datastream = Datastream(
    id: string,
    name: string,
    description: string,
    observationType: ObservationType,
    unit: Unit,
    sensor: Sensor,
    observedProperty: ObservedProperty,
    thing: string,
    code: string)

  /**
   * One reading, with the `@iot.id` of the Datastream it was made for. The model keeps
   * that id on every Observation to group them by Datastream; the output strips it.
   */
  datatype Observation = Observation(phenomenonTime: Cell, resultTime: Cell, result: real, datastream: string)

  // ---------------------------------------------------------------- Things

  /** The natural key of a station's Thing. */
  function ThingKey(v: Variant, site: Site, idMs: string): string {
    match v
    case StationKeyed => idMs
    case LegendKeyed => site.hms + "_" + site.bemerkung + "_" + idMs
  }

  function ThingId(key: string): string {
    "thing_" + key
  }

  /** The Thing created the first time `key` is seen. */
  function NewThing(v: Variant, key: string, site: Site, idMs: string, category: string): (t: Thing)
    ensures t.id == ThingId(key) && t.idMs == idMs && t.category == category
    ensures t.site == (if v.LegendKeyed? then Some(site) else None)
  {
    match v
    case StationKeyed =>
      Thing(ThingId(key), "Measurement Station " + idMs,
            category + " measurement station with ID " + idMs, idMs, category, None)
    case LegendKeyed =>
      Thing(ThingId(key), site.hms + " - " + site.bemerkung + " - Station " + idMs,
            category + " measurement station for " + site.hms + " (" + site.bemerkung + ") with ID: " + idMs,
            idMs, category, Some(site))
  }

  // ------------------------------------------------------------- Locations

  /** The Location id the converters intend: the owning Thing's natural key behind "location_". */
  function LocationId(thingKey: string): string {
    "location_" + thingKey
  }

  /**
   * The Location id as the converter computes it from the Thing id:
   * `thing_id.split('_')[1]` (station-keyed) or `thing_id.replace('thing_', '')`
   * (legend-keyed). `None` is the IndexError of the first form.
   */
  function LocationIdAsWritten(v: Variant, thingId: string): Option<string> {
    match v
    case StationKeyed =>
      (match SecondField(thingId, '_')
       case None => None
       case Some(token) => Some("location_" + token))
    case LegendKeyed => Some("location_" + ReplaceAll(thingId, "thing_", ""))
  }

  /** A Thing id always has a second `_`-separated field, so the IndexError of `split('_')[1]` never occurs. */
  lemma LocationIdDefined(v: Variant, thingKey: string)
    ensures LocationIdAsWritten(v, ThingId(thingKey)).Some?
  {
    assert ThingId(thingKey)[5] == '_';
  }

  /**
   * The Location created for a Thing the first time its id is seen, under the id
   * the converter computes from the Thing's `@iot.id` (always `thing_` + its key).
   */
  function NewLocation(v: Variant, thingKey: string, thingId: string, site: Site): (l: Location)
    ensures Some(l.id) == LocationIdAsWritten(v, ThingId(thingKey))
    ensures l.coordinates == (0, 0) && l.encodingType == "application/geo+json"
    ensures v.LegendKeyed? && site.hms != "Unknown" ==> l.name == "Location for " + site.hms + " (" + site.bemerkung + ")"
    ensures v.StationKeyed? || site.hms == "Unknown" ==> l.name == "Location for " + thingId
  {
    LocationIdDefined(v, thingKey);
    var id := LocationIdAsWritten(v, ThingId(thingKey)).value;
    match v
    case StationKeyed =>
      Location(id, "Location for " + thingId, "Measurement station location", "application/geo+json", (0, 0))
    case LegendKeyed =>
      var name := if site.hms != "Unknown" then "Location for " + site.hms + " (" + site.bemerkung + ")"
                  else "Location for " + thingId;
      Location(id, name, "Measurement station location for " + site.hms + " (" + site.bemerkung + ")",
               "application/geo+json", (0, 0))
  }

  // ------------------------------------------ ObservedProperties and Sensors

  function ObservedPropertyId(code: string): string {
    "op_" + code
  }

  /** The ObservedProperty of a measurement code; an unknown code is its own name. */
  function NewObservedProperty(code: string): (p: ObservedProperty)
    ensures p.id == ObservedPropertyId(code)
    ensures p.definition == "http://example.org/properties/" + code
    ensures Known(code) ==> p.name == UnitOf(code).name
    ensures !Known(code) ==> p.name == code
  {
    var friendly := FriendlyName(code);
    ObservedProperty(ObservedPropertyId(code), friendly, "Observed property for " + friendly,
                     "http://example.org/properties/" + code)
  }

  function SensorId(code: string): string {
    "sensor_" + code
  }

  /** The Sensor of a measurement code, named after its catalogue name, or after the code when unknown. */
  function NewSensor(code: string): (s: Sensor)
    ensures s.id == SensorId(code)
    ensures s.metadata == "http://example.org/sensors/" + code
    ensures Known(code) ==> s.name == UnitOf(code).name + " Sensor"
    ensures !Known(code) ==> s.name == code + " Sensor"
  {
    var friendly := FriendlyName(code);
    Sensor(SensorId(code), friendly + " Sensor", "Sensor for measuring " + friendly,
           "application/pdf", "http://example.org/sensors/" + code)
  }

  // ----------------------------------------------------------- Datastreams

  /** The natural key of a Datastream: owning Thing id and code, plus the legend suffix when legend-keyed. */
  function DatastreamKey(v: Variant, thingId: string, code: string, site: Site): string {
    match v
    case StationKeyed => thingId + "_" + code
    case LegendKeyed => thingId + "_" + code + "_" + site.hms + "_" + site.bemerkung
  }

  function DatastreamId(key: string): string {
    "ds_" + key
  }

  /** The Datastream created the first time its key is seen; an unknown code gets the "Unknown" unit. */
  function NewDatastream(v: Variant, key: string, thingKey: string, thingId: string, code: string, site: Site,
                         sensor: Sensor, property: ObservedProperty): (d: Datastream)
    ensures d.id == DatastreamId(key) && d.thing == thingKey && d.code == code
    ensures d.sensor == sensor && d.observedProperty == property
    ensures d.observationType == Measurement
    ensures Known(code) ==> d.unit == UnitOf(code)
    ensures !Known(code) ==> d.unit == Unit("Unknown", "", "ucum:")
  {
    var friendly := FriendlyName(code);
    var (name, description) :=
      match v
      case StationKeyed =>
        (friendly + " Datastream for Thing " + thingId, "Datastream for measuring " + friendly)
      case LegendKeyed =>
        (friendly + " Datastream for " + site.hms + " (" + site.bemerkung + ")",
         "Datastream for measuring " + friendly + " at " + site.hms + " (" + site.bemerkung + ")");
    Datastream(DatastreamId(key), name, description, Measurement, UnitOf(code), sensor, property, thingKey, code)
  }

  // ------------------------------------------------------------- Id lemmas

  /** Distinct natural keys never share an `@iot.id`, for every prefixed id form. */
  lemma IdsInjective(a: string, b: string)
    requires a != b
    ensures ThingId(a) != ThingId(b) && DatastreamId(a) != DatastreamId(b)
    ensures LocationId(a) != LocationId(b)
    ensures ObservedPropertyId(a) != ObservedPropertyId(b) && SensorId(a) != SensorId(b)
  {
    if ThingId(a) == ThingId(b) { PrefixInjective("thing_", a, b); }
    if DatastreamId(a) == DatastreamId(b) { PrefixInjective("ds_", a, b); }
    if LocationId(a) == LocationId(b) { PrefixInjective("location_", a, b); }
    if ObservedPropertyId(a) == ObservedPropertyId(b) { PrefixInjective("op_", a, b); }
    if SensorId(a) == SensorId(b) { PrefixInjective("sensor_", a, b); }
  }

  /** At one site, different station codes are different Things: one Thing per station. */
  lemma ThingKeyInjective(v: Variant, site: Site, a: string, b: string)
    requires a != b
    ensures ThingKey(v, site, a) != ThingKey(v, site, b)
  {
    if v.LegendKeyed? {
      var p := site.hms + "_" + site.bemerkung + "_";
      if p + a == p + b { PrefixInjective(p, a, b); }
    }
  }

  /** One Thing's Datastreams for different codes have different keys: one Datastream per Thing and code. */
  lemma DatastreamKeyInjective(v: Variant, thingId: string, site: Site, c1: string, c2: string)
    requires c1 != c2
    ensures DatastreamKey(v, thingId, c1, site) != DatastreamKey(v, thingId, c2, site)
  {
    var p := thingId + "_";
    match v
    case StationKeyed =>
      if p + c1 == p + c2 { PrefixInjective(p, c1, c2); }
    case LegendKeyed =>
      var q := "_" + site.hms + "_" + site.bemerkung;
      var k1 := DatastreamKey(v, thingId, c1, site);
      var k2 := DatastreamKey(v, thingId, c2, site);
      assert k1 == p + c1 + q && k2 == p + c2 + q;
      if |c1| == |c2| {
        assert k1[|p|..|p| + |c1|] == c1 && k2[|p|..|p| + |c2|] == c2;
      }
  }

  /** For a station code without '_', `thing_id.split('_')[1]` recovers the code, as intended. */
  lemma StationLocationIdAgrees(idMs: string)
    requires '_' !in idMs
    ensures LocationIdAsWritten(StationKeyed, ThingId(idMs)) == Some(LocationId(idMs))
  {
    var s := ThingId(idMs);
    assert s[5] == '_';
    var first := Before(s, '_');
    assert |first| == 5 by {
      assert first != s by { assert s[5] in s; }
    }
    var token := SecondField(s, '_').value;
    var head := first + ['_'] + token;
    assert token <= idMs by {
      forall i | 0 <= i < |token| ensures token[i] == idMs[i] {
        assert head[6 + i] == s[6 + i];
      }
    }
    assert token == idMs;
  }

  /** For a Thing key without "thing_" in it, `replace('thing_', '')` strips just the prefix, as intended. */
  lemma LegendLocationIdAgrees(key: string)
    requires !Contains(key, "thing_")
    ensures LocationIdAsWritten(LegendKeyed, ThingId(key)) == Some(LocationId(key))
  {
    var s := ThingId(key);
    assert "thing_" <= s;
    assert s[|"thing_"|..] == key;
    assert ReplaceAll(s, "thing_", "") == "" + ReplaceAll(key, "thing_", "");
    ReplaceAllAbsent(key, "thing_", "");
    assert "" + key == key;
  }
}

=== FILE: findings.dfy ===
/**
 * Where the converters' own assembly and Location naming part from what they
 * evidently intend: each discrepancy as the code has it, on the inputs that show
 * it, next to the intended behaviour on the same inputs.
 */
module Findings {
  import opened Wrappers
  import opened Strings
  import opened Entities
  import opened Materializer
  import opened Assembly

  // ------------------------------------------ every Observation everywhere

  /** A Datastream key that starts with the Thing's id puts at least one entry under it. */
  lemma SelectedOne(v: Variant, s: State, thingId: string, keys: seq<string>, k: string)
    requires forall k :: k in keys ==> k in s.datastreams.entries
    requires k in keys && StartsWith(k, thingId)
    ensures |DatastreamsAsWritten(v, s, thingId, keys)| >= 1
  {
    DatastreamsAsWrittenExactly(v, s, thingId, keys);
    var d := s.datastreams.entries[k];
    assert SelectedVia(v, s, thingId, k, DatastreamOut(d, ObservationsAsWritten(v, s, d)));
  }

  /** Two such keys put at least two entries under it. */
  lemma {:induction false} SelectedTwo(v: Variant, s: State, thingId: string, keys: seq<string>, k1: string, k2: string)
    requires forall k :: k in keys ==> k in s.datastreams.entries
    requires k1 != k2 && k1 in keys && k2 in keys && StartsWith(k1, thingId) && StartsWith(k2, thingId)
    ensures |DatastreamsAsWritten(v, s, thingId, keys)| >= 2
    decreases |keys|
  {
    var rest := keys[1..];
    if keys[0] == k1 {
      assert k2 in rest;
      SelectedOne(v, s, thingId, rest, k2);
    } else if keys[0] == k2 {
      assert k1 in rest;
      SelectedOne(v, s, thingId, rest, k1);
    } else {
      assert k1 in rest && k2 in rest;
      SelectedTwo(v, s, thingId, rest, k1, k2);
    }
  }

  lemma {:induction false} DatastreamCountAtLeast(doc: Document, i: nat)
    requires i < |doc|
    ensures DatastreamCount(doc) >= |doc[i].datastreams|
    decreases i
  {
    if i > 0 {
      DatastreamCountAtLeast(doc[1..], i - 1);
    }
  }

  /**
   * As written, the station-keyed converter nests every Observation under every
   * listed Datastream: once a Thing lists two Datastreams (one station with a TEMP
   * and an RH column), each recorded Observation appears at least twice.
   */
  lemma StationKeyedRepeatsObservations(s: State, i: nat, k1: string, k2: string)
    requires Listed(s) && i < |s.things.order| && |s.observations| > 0
    requires k1 != k2 && k1 in s.datastreams.order && k2 in s.datastreams.order
    requires var id := s.things.entries[s.things.order[i]].id;
             StartsWith(k1, id) && StartsWith(k2, id)
    ensures TotalObservations(AssembleAsWritten(StationKeyed, s)) >= 2 * |s.observations| > |s.observations|
  {
    var doc := AssembleAsWritten(StationKeyed, s);
    SelectedTwo(StationKeyed, s, doc[i].thing.id, s.datastreams.order, k1, k2);
    DatastreamCountAtLeast(doc, i);
    StationKeyedTotal(s);
    assert DatastreamCount(doc) * |s.observations| >= 2 * |s.observations| by {
      AtLeastTwice(DatastreamCount(doc), |s.observations|);
    }
  }

  lemma AtLeastTwice(count: nat, n: nat)
    requires count >= 2
    ensures count * n >= 2 * n
  {
  }

  /** Every Datastream key of a station starts with the station's Thing id, and different codes give different keys. */
  lemma OwnKeys(v: Variant, site: Site, idMs: string, code1: string, code2: string)
    requires code1 != code2
    ensures var id := ThingId(ThingKey(v, site, idMs));
            && StartsWith(DatastreamKey(v, id, code1, site), id)
            && StartsWith(DatastreamKey(v, id, code2, site), id)
            && DatastreamKey(v, id, code1, site) != DatastreamKey(v, id, code2, site)
  {
    var id := ThingId(ThingKey(v, site, idMs));
    DatastreamKeyInjective(v, id, site, code1, code2);
    assert id <= DatastreamKey(v, id, code1, site) && id <= DatastreamKey(v, id, code2, site);
  }

  /**
   * The station-keyed converter as written, on a station measured in two codes (one
   * TEMP and one RH column, say): once anything is recorded, the document nests at
   * least twice as many Observations as were recorded.
   */
  lemma StationKeyedRepeatsForTwoCodes(s: State, i: nat, code1: string, code2: string)
    requires Listed(s) && ThingIdsMatch(s.things) && i < |s.things.order| && |s.observations| > 0
    requires code1 != code2
    requires var id := ThingId(s.things.order[i]);
             && DatastreamKey(StationKeyed, id, code1, UnknownSite) in s.datastreams.order
             && DatastreamKey(StationKeyed, id, code2, UnknownSite) in s.datastreams.order
    ensures TotalObservations(AssembleAsWritten(StationKeyed, s)) >= 2 * |s.observations|
  {
    var tk := s.things.order[i];
    OwnKeys(StationKeyed, UnknownSite, tk, code1, code2);
    StationKeyedRepeatsObservations(s, i, DatastreamKey(StationKeyed, ThingId(tk), code1, UnknownSite),
                                    DatastreamKey(StationKeyed, ThingId(tk), code2, UnknownSite));
  }

  // ------------------------------------------------------ key-prefix collisions

  /** Station "10"'s Datastream keys start with station "1"'s Thing id, for every code and site, in both converters. */
  lemma TenStartsWithOne(v: Variant, site: Site, code: string)
    ensures StartsWith(DatastreamKey(v, ThingId(ThingKey(v, site, "10")), code, site), ThingId(ThingKey(v, site, "1")))
    ensures ThingKey(v, site, "1") != ThingKey(v, site, "10")
  {
    var one := ThingId(ThingKey(v, site, "1"));
    var ten := ThingId(ThingKey(v, site, "10"));
    assert ten == one + "0";
    assert |ThingKey(v, site, "1")| + 1 == |ThingKey(v, site, "10")|;
  }

  /**
   * As written, both converters list station "10"'s Datastream under station "1" as
   * well, whenever both stations share a site.
   */
  lemma PrefixCollision(v: Variant, s: State, i: nat, site: Site, code: string)
    requires Listed(s) && i < |s.things.order|
    requires s.things.entries[s.things.order[i]].id == ThingId(ThingKey(v, site, "1"))
    requires DatastreamKey(v, ThingId(ThingKey(v, site, "10")), code, site) in s.datastreams.order
    ensures var d := s.datastreams.entries[DatastreamKey(v, ThingId(ThingKey(v, site, "10")), code, site)];
            DatastreamOut(d, ObservationsAsWritten(v, s, d)) in AssembleAsWritten(v, s)[i].datastreams
  {
    var k := DatastreamKey(v, ThingId(ThingKey(v, site, "10")), code, site);
    var d := s.datastreams.entries[k];
    TenStartsWithOne(v, site, code);
    DatastreamsAsWrittenExactly(v, s, ThingId(ThingKey(v, site, "1")), s.datastreams.order);
    assert SelectedVia(v, s, ThingId(ThingKey(v, site, "1")), k, DatastreamOut(d, ObservationsAsWritten(v, s, d)));
  }

  /** On the same state, the intended document does not list station "10"'s Datastream under station "1". */
  lemma PrefixCollisionIntended(v: Variant, s: State, i: nat, site: Site, code: string)
    requires Listed(s) && i < |s.things.order| && s.things.order[i] == ThingKey(v, site, "1")
    requires var k := DatastreamKey(v, ThingId(ThingKey(v, site, "10")), code, site);
             k in s.datastreams.order && s.datastreams.entries[k].thing == ThingKey(v, site, "10")
    ensures var d := s.datastreams.entries[DatastreamKey(v, ThingId(ThingKey(v, site, "10")), code, site)];
            forall e :: e in Assemble(s)[i].datastreams ==> e.datastream != d
  {
    TenStartsWithOne(v, site, code);
    var doc := Assemble(s);
    forall e | e in doc[i].datastreams
      ensures e.datastream.thing == ThingKey(v, site, "1")
    {
      var j :| 0 <= j < |doc[i].datastreams| && doc[i].datastreams[j] == e;
    }
  }

  // ----------------------------------------------------------- Location ids

  /** `split('_')[1]` of a Thing id keeps only the station key's text before its own first underscore. */
  lemma StationLocationIdTruncates(head: string, rest: string)
    requires '_' !in head && (rest == [] || rest[0] == '_')
    ensures LocationIdAsWritten(StationKeyed, ThingId(head + rest)) == Some(LocationId(head))
  {
    assert ThingId(head + rest) == "thing" + ['_'] + head + rest;
    SecondFieldIs(ThingId(head + rest), '_', "thing", head, rest);
  }

  /** "MS_1" and "MS_2" share the Location id "location_MS". */
  lemma StationLocationIdCollision()
    ensures LocationIdAsWritten(StationKeyed, ThingId("MS_1")) == Some("location_MS")
    ensures LocationIdAsWritten(StationKeyed, ThingId("MS_2")) == Some("location_MS")
  {
    assert "MS_1" == "MS" + "_1" && "MS_2" == "MS" + "_2";
    StationLocationIdTruncates("MS", "_1");
    StationLocationIdTruncates("MS", "_2");
    assert LocationId("MS") == "location_MS";
  }

  /** The intended Location ids of the same two stations differ. */
  lemma StationLocationIdIntended()
    ensures LocationId("MS_1") != LocationId("MS_2")
  {
    IdsInjective("MS_1", "MS_2");
  }

  /** `replace('thing_', '')` of a Thing id also deletes a "thing_" inside the key. */
  lemma LegendLocationIdDropsInnerTag(head: string, tail: string)
    requires 't' !in head && 't' !in tail
    ensures LocationIdAsWritten(LegendKeyed, ThingId(head + "thing_" + tail)) == Some(LocationId(head + tail))
    ensures LocationIdAsWritten(LegendKeyed, ThingId(head + tail)) == Some(LocationId(head + tail))
  {
    var t := "thing_";
    assert ThingId(head + t + tail) == t + (head + (t + tail));
    ReplaceAllHit(t, head + (t + tail), "");
    ReplaceAllSkip(head, t + tail, t, "");
    ReplaceAllHit(t, tail, "");
    assert tail + [] == tail;
    ReplaceAllSkip(tail, [], t, "");
    assert ReplaceAll([], t, "") == [];
    assert ReplaceAll(tail, t, "") == tail;
    assert ReplaceAll(t + tail, t, "") == tail;
    assert ReplaceAll(head + (t + tail), t, "") == head + tail;
    assert ReplaceAll(ThingId(head + t + tail), t, "") == head + tail;
    assert ThingId(head + tail) == t + (head + tail);
    ReplaceAllHit(t, head + tail, "");
    ReplaceAllSkip(head, tail, t, "");
  }

  /** The Things keyed "U__thing_1" (station "thing_1" at site "U") and "U__1" share the Location id "location_U__1". */
  lemma LegendLocationIdCollision()
    ensures LocationIdAsWritten(LegendKeyed, ThingId("U__thing_1")) == Some("location_U__1")
    ensures LocationIdAsWritten(LegendKeyed, ThingId("U__1")) == Some("location_U__1")
  {
    assert "U__thing_1" == "U__" + "thing_" + "1" && "U__1" == "U__" + "1";
    LegendLocationIdDropsInnerTag("U__", "1");
    assert LocationId("U__" + "1") == "location_U__1";
  }

  /** The intended Location ids of the same two Things differ. */
  lemma LegendLocationIdIntended()
    ensures LocationId("U__thing_1") != LocationId("U__1")
  {
    IdsInjective("U__thing_1", "U__1");
  }
}

=== FILE: legend.dfy ===
/**
 * The legend lookup of the legend-keyed converter: the LEGENDE sheet maps a
 * station code (ID_MS) to its site label (HMS) and remark (Bemerkung).
 */
module Legend {
  import opened Wrappers
  import opened Table
  import opened Entities

  type LegendMap = map<string, Site>

  /** The first sheet called `name` (sheet names are unique in a workbook). */
  function FindSheet(wb: Workbook, name: string): (r: Option<Sheet>)
    ensures r.None? <==> forall i :: 0 <= i < |wb| ==> wb[i].name != name
    ensures r.Some? ==> exists i :: 0 <= i < |wb| && wb[i] == r.value && r.value.name == name
  {
    if |wb| == 0 then None
    else if wb[0].name == name then Some(wb[0])
    else
      var r := FindSheet(wb[1..], name);
      assert forall i :: 1 <= i < |wb| ==> wb[i] == wb[1..][i - 1];
      r
  }

  /** The station code a legend row describes: `str(row["ID_MS"])`. */
  function RowKey(row: Row, idCol: nat): string {
    Str(CellAt(row, idCol))
  }

  /**
   * The site a legend row describes: HMS and Bemerkung as `str()` renders them,
   * except that a missing HMS reads "Unknown" and a missing or absent Bemerkung reads "".
   */
  function RowSite(row: Row, hmsCol: nat, bemerkungCol: Option<nat>): (s: Site)
    ensures CellAt(row, hmsCol).Missing? ==> s.hms == "Unknown"
    ensures !CellAt(row, hmsCol).Missing? ==> s.hms == Str(CellAt(row, hmsCol))
    ensures bemerkungCol.None? ==> s.bemerkung == ""
    ensures bemerkungCol.Some? && CellAt(row, bemerkungCol.value).Missing? ==> s.bemerkung == ""
    ensures bemerkungCol.Some? && !CellAt(row, bemerkungCol.value).Missing? ==>
              s.bemerkung == Str(CellAt(row, bemerkungCol.value))
  {
    var hms := CellAt(row, hmsCol);
    var bemerkung := if bemerkungCol.None? then Missing else CellAt(row, bemerkungCol.value);
    Site(if hms.Missing? then "Unknown" else Str(hms),
         if bemerkung.Missing? then "" else Str(bemerkung))
  }

  /** Every code some row lists is a key of `m`, and nothing else is. */
  ghost predicate ListsExactly(m: LegendMap, rows: seq<Row>, idCol: nat) {
    forall k :: k in m <==> exists i :: 0 <= i < |rows| && RowKey(rows[i], idCol) == k
  }

  /** Row `i` is the last row listing code `k`. */
  ghost predicate LastRowFor(rows: seq<Row>, idCol: nat, k: string, i: int) {
    && 0 <= i < |rows|
    && RowKey(rows[i], idCol) == k
    && forall j :: i < j < |rows| ==> RowKey(rows[j], idCol) != k
  }

  /** At most one row is the last to list a code. */
  lemma LastRowUnique(rows: seq<Row>, idCol: nat, k: string, i: int, j: int)
    requires LastRowFor(rows, idCol, k, i) && LastRowFor(rows, idCol, k, j)
    ensures i == j
  {
  }

  /** Each entry of `m` is the site of the last row listing its code. */
  ghost predicate LastRowWins(m: LegendMap, rows: seq<Row>, idCol: nat, hmsCol: nat, bemerkungCol: Option<nat>) {
    forall k :: k in m ==>
      exists i :: LastRowFor(rows, idCol, k, i) && m[k] == RowSite(rows[i], hmsCol, bemerkungCol)
  }

  /**
   * The map built by assigning each legend row in turn: every listed code is a key,
   * and the LAST row listing a code decides its entry.
   */
  function LegendRows(rows: seq<Row>, idCol: nat, hmsCol: nat, bemerkungCol: Option<nat>): (m: LegendMap)
    ensures ListsExactly(m, rows, idCol)
    ensures LastRowWins(m, rows, idCol, hmsCol, bemerkungCol)
  {
    if |rows| == 0 then map[]
    else
      var n := |rows| - 1;
      var m := LegendRows(rows[..n], idCol, hmsCol, bemerkungCol);
      var m' := m[RowKey(rows[n], idCol) := RowSite(rows[n], hmsCol, bemerkungCol)];
      LegendRowsStep(m, rows, idCol, hmsCol, bemerkungCol);
      m'
  }

  /** Assigning the last row to a map built from the others keeps both properties. */
  lemma LegendRowsStep(m: LegendMap, rows: seq<Row>, idCol: nat, hmsCol: nat, bemerkungCol: Option<nat>)
    requires |rows| > 0
    requires ListsExactly(m, rows[..|rows| - 1], idCol)
    requires LastRowWins(m, rows[..|rows| - 1], idCol, hmsCol, bemerkungCol)
    ensures var n := |rows| - 1;
            var m' := m[RowKey(rows[n], idCol) := RowSite(rows[n], hmsCol, bemerkungCol)];
            ListsExactly(m', rows, idCol) && LastRowWins(m', rows, idCol, hmsCol, bemerkungCol)
  {
    ListsExactlyStep(m, rows, idCol, RowSite(rows[|rows| - 1], hmsCol, bemerkungCol));
    LastRowWinsStep(m, rows, idCol, hmsCol, bemerkungCol);
  }

  lemma ListsExactlyStep(m: LegendMap, rows: seq<Row>, idCol: nat, site: Site)
    requires |rows| > 0
    requires ListsExactly(m, rows[..|rows| - 1], idCol)
    ensures ListsExactly(m[RowKey(rows[|rows| - 1], idCol) := site], rows, idCol)
  {
    var n := |rows| - 1;
    var front := rows[..n];
    var last := RowKey(rows[n], idCol);
    var m' := m[last := site];
    forall k | k in m' ensures exists i :: 0 <= i < |rows| && RowKey(rows[i], idCol) == k {
      if k != last {
        var i :| 0 <= i < n && RowKey(front[i], idCol) == k;
        assert rows[i] == front[i];
      }
    }
    forall k | exists i :: 0 <= i < |rows| && RowKey(rows[i], idCol) == k ensures k in m' {
      var i :| 0 <= i < |rows| && RowKey(rows[i], idCol) == k;
      if i < n {
        assert front[i] == rows[i];
      }
    }
  }

  lemma LastRowWinsStep(m: LegendMap, rows: seq<Row>, idCol: nat, hmsCol: nat, bemerkungCol: Option<nat>)
    requires |rows| > 0
    requires LastRowWins(m, rows[..|rows| - 1], idCol, hmsCol, bemerkungCol)
    ensures var n := |rows| - 1;
            var m' := m[RowKey(rows[n], idCol) := RowSite(rows[n], hmsCol, bemerkungCol)];
            LastRowWins(m', rows, idCol, hmsCol, bemerkungCol)
  {
    var n := |rows| - 1;
    var front := rows[..n];
    var last := RowKey(rows[n], idCol);
    var m' := m[last := RowSite(rows[n], hmsCol, bemerkungCol)];
    forall k | k in m'
      ensures exists i :: LastRowFor(rows, idCol, k, i) && m'[k] == RowSite(rows[i], hmsCol, bemerkungCol)
    {
      if k == last {
        assert LastRowFor(rows, idCol, k, n);
      } else {
        var i :| LastRowFor(front, idCol, k, i) && m[k] == RowSite(front[i], hmsCol, bemerkungCol);
        assert rows[i] == front[i];
        forall j | i < j < |rows| ensures RowKey(rows[j], idCol) != k {
          if j < n {
            assert rows[j] == front[j];
          }
        }
        assert LastRowFor(rows, idCol, k, i);
      }
    }
  }

  /**
   * `id_to_hms_mapping`: built from the LEGENDE sheet only when it exists and has
   * both an HMS and an ID_MS column, each listed code mapped to the site of the
   * last row listing it; empty otherwise.
   */
  function BuildLegend(wb: Workbook): (m: LegendMap)
    ensures FindSheet(wb, "LEGENDE").None? ==> m == map[]
    ensures FindSheet(wb, "LEGENDE").Some? ==>
              var legend := FindSheet(wb, "LEGENDE").value;
              ("HMS" !in legend.columns || "ID_MS" !in legend.columns ==> m == map[])
    ensures FindSheet(wb, "LEGENDE").Some? ==>
              var legend := FindSheet(wb, "LEGENDE").value;
              ("HMS" in legend.columns && "ID_MS" in legend.columns ==>
                 var idCol := IndexOf(legend.columns, "ID_MS").value;
                 var hmsCol := IndexOf(legend.columns, "HMS").value;
                 && ListsExactly(m, legend.rows, idCol)
                 && LastRowWins(m, legend.rows, idCol, hmsCol, IndexOf(legend.columns, "Bemerkung")))
  {
    match FindSheet(wb, "LEGENDE")
    case None => map[]
    case Some(sheet) =>
      match (IndexOf(sheet.columns, "ID_MS"), IndexOf(sheet.columns, "HMS"))
      case (Some(idCol), Some(hmsCol)) =>
        LegendRows(sheet.rows, idCol, hmsCol, IndexOf(sheet.columns, "Bemerkung"))
      case _ => map[]
  }

  /** `id_to_hms_mapping.get(id_ms, {"hms": "Unknown", "bemerkung": ""})`. */
  function SiteOf(legend: LegendMap, idMs: string): (s: Site)
    ensures idMs in legend ==> s == legend[idMs]
    ensures idMs !in legend ==> s == UnknownSite
  {
    if idMs in legend then legend[idMs] else UnknownSite
  }

  /**
   * The site the legend-keyed converter attaches to station `idMs`: the site of the
   * last LEGENDE row listing it, and the unknown site when there is no usable
   * LEGENDE sheet or no row lists it.
   */
  lemma SiteOfLegend(wb: Workbook, idMs: string)
    ensures var site := SiteOf(BuildLegend(wb), idMs);
            match FindSheet(wb, "LEGENDE")
            case None => site == UnknownSite
            case Some(sheet) =>
              match (IndexOf(sheet.columns, "ID_MS"), IndexOf(sheet.columns, "HMS"))
              case (Some(idCol), Some(hmsCol)) =>
                && (forall i :: LastRowFor(sheet.rows, idCol, idMs, i) ==>
                      site == RowSite(sheet.rows[i], hmsCol, IndexOf(sheet.columns, "Bemerkung")))
                && ((forall i :: 0 <= i < |sheet.rows| ==> RowKey(sheet.rows[i], idCol) != idMs) ==>
                      site == UnknownSite)
              case _ => site == UnknownSite
  {
    match FindSheet(wb, "LEGENDE")
    case None =>
    case Some(sheet) =>
      match (IndexOf(sheet.columns, "ID_MS"), IndexOf(sheet.columns, "HMS"))
      case (Some(idCol), Some(hmsCol)) =>
        var bem := IndexOf(sheet.columns, "Bemerkung");
        var m := BuildLegend(wb);
        forall i | LastRowFor(sheet.rows, idCol, idMs, i)
          ensures SiteOf(m, idMs) == RowSite(sheet.rows[i], hmsCol, bem)
        {
          var i' :| LastRowFor(sheet.rows, idCol, idMs, i') && m[idMs] == RowSite(sheet.rows[i'], hmsCol, bem);
          LastRowUnique(sheet.rows, idCol, idMs, i, i');
        }
      case _ =>
  }
}

=== FILE: materializer.dfy ===
/**
 * The conversion state: one create-or-get registry per entity kind plus the
 * append-only list of Observations, and the `create_*` operations on it.
 */
module Materializer {
  import opened Wrappers
  import opened Table
  import opened Catalogue
  import opened Registry
  import opened Entities

  /** The converter's dictionaries: Things by natural key, Locations by Thing id, the rest by their keys. */
  datatype State = State(
    things: Registry<Thing>,
    locations: Registry<Location>,
    observedProperties: Registry<ObservedProperty>,
    sensors: Registry<Sensor>,
    datastreams: Registry<Datastream>,
    observations: seq<Observation>)

  /** The state before the first sheet: every dictionary empty and no Observation recorded. */
  function Initial(): (s: State)
    ensures Inv(s) && RegistriesValid(s)
    ensures s.things.entries == map[] && s.things.order == []
    ensures s.locations.entries == map[] && s.locations.order == []
    ensures s.observedProperties.entries == map[] && s.observedProperties.order == []
    ensures s.sensors.entries == map[] && s.sensors.order == []
    ensures s.datastreams.entries == map[] && s.datastreams.order == []
    ensures s.observations == []
  {
    State(Empty(), Empty(), Empty(), Empty(), Empty(), [])
  }

  /**
   * What every state the conversion reaches satisfies: each id is derived from the
   * registry key, a Datastream's owner, Sensor and ObservedProperty are registered,
   * every Location is the point (0, 0), every Observation refers to a
   * registered Datastream, and every registry lists its keys exactly once.
   */
  ghost predicate Inv(s: State) {
    && RegistriesValid(s)
    && ThingIdsMatch(s.things)
    && LocationsAtOrigin(s.locations)
    && SensorsMatch(s.sensors)
    && PropertiesMatch(s.observedProperties)
    && DatastreamsWellFormed(s.datastreams, s.things, s.sensors, s.observedProperties)
    && ObservationsResolve(s.observations, s.datastreams)
  }

  /** Every registry lists each of its keys exactly once, in insertion order. */
  ghost predicate RegistriesValid(s: State) {
    && Valid(s.things) && Valid(s.locations) && Valid(s.observedProperties)
    && Valid(s.sensors) && Valid(s.datastreams)
  }

  ghost predicate ThingIdsMatch(things: Registry<Thing>) {
    forall k :: k in things.entries ==> things.entries[k].id == ThingId(k)
  }

  ghost predicate LocationsAtOrigin(locations: Registry<Location>) {
    forall k :: k in locations.entries ==> locations.entries[k].coordinates == (0, 0)
  }

  ghost predicate SensorsMatch(sensors: Registry<Sensor>) {
    forall k :: k in sensors.entries ==> sensors.entries[k] == NewSensor(k)
  }

  ghost predicate PropertiesMatch(properties: Registry<ObservedProperty>) {
    forall k :: k in properties.entries ==> properties.entries[k] == NewObservedProperty(k)
  }

  ghost predicate DatastreamsWellFormed(datastreams: Registry<Datastream>, things: Registry<Thing>,
                                        sensors: Registry<Sensor>, properties: Registry<ObservedProperty>) {
    forall k :: k in datastreams.entries ==> DatastreamWellFormed(datastreams.entries[k], k, things, sensors, properties)
  }

  /** A stored Datastream: its id comes from its key, its owner is registered, and it carries its code's registered Sensor and ObservedProperty. */
  ghost predicate DatastreamWellFormed(d: Datastream, key: string, things: Registry<Thing>,
                                       sensors: Registry<Sensor>, properties: Registry<ObservedProperty>) {
    && d.id == DatastreamId(key)
    && d.thing in things.entries
    && d.code in sensors.entries && d.sensor == sensors.entries[d.code]
    && d.code in properties.entries && d.observedProperty == properties.entries[d.code]
  }

  /** Every stored Datastream's `@iot.id` is derived from its key. */
  ghost predicate DatastreamIdsMatch(datastreams: Registry<Datastream>) {
    forall k :: k in datastreams.entries ==> datastreams.entries[k].id == DatastreamId(k)
  }

  lemma InvIdsMatch(s: State)
    requires Inv(s)
    ensures ThingIdsMatch(s.things) && DatastreamIdsMatch(s.datastreams)
  {
    forall k | k in s.datastreams.entries ensures s.datastreams.entries[k].id == DatastreamId(k) {
      assert DatastreamWellFormed(s.datastreams.entries[k], k, s.things, s.sensors, s.observedProperties);
    }
  }

  ghost predicate ObservationsResolve(observations: seq<Observation>, datastreams: Registry<Datastream>) {
    forall i :: 0 <= i < |observations| ==> RefersTo(observations[i], datastreams)
  }

  ghost predicate RefersTo(o: Observation, datastreams: Registry<Datastream>) {
    IsDatastreamId(datastreams, o.datastream)
  }

  /** `id` is the `@iot.id` of some registered Datastream. */
  ghost predicate IsDatastreamId(datastreams: Registry<Datastream>, id: string) {
    exists k :: k in datastreams.entries && id == DatastreamId(k)
  }

  /** Every registered Thing has its Location (keyed by the Thing's id). */
  ghost predicate LocationsComplete(s: State) {
    forall k :: k in s.things.entries ==> ThingId(k) in s.locations.entries
  }

  /** `s'` only adds to `s`: no stored entity changes or moves and no Observation is lost. */
  ghost predicate Grows(s: State, s': State) {
    && Extends(s.things, s'.things)
    && Extends(s.locations, s'.locations)
    && Extends(s.observedProperties, s'.observedProperties)
    && Extends(s.sensors, s'.sensors)
    && Extends(s.datastreams, s'.datastreams)
    && s.observations <= s'.observations
  }

  lemma GrowsTransitive(s1: State, s2: State, s3: State)
    requires Grows(s1, s2) && Grows(s2, s3)
    ensures Grows(s1, s3)
  {
  }

  /** Registering more Things, Sensors or ObservedProperties keeps every stored Datastream well formed. */
  lemma WellFormedMonotone(datastreams: Registry<Datastream>,
                           things: Registry<Thing>, sensors: Registry<Sensor>, properties: Registry<ObservedProperty>,
                           things': Registry<Thing>, sensors': Registry<Sensor>, properties': Registry<ObservedProperty>)
    requires DatastreamsWellFormed(datastreams, things, sensors, properties)
    requires Extends(things, things') && Extends(sensors, sensors') && Extends(properties, properties')
    ensures DatastreamsWellFormed(datastreams, things', sensors', properties')
  {
    forall k | k in datastreams.entries
      ensures DatastreamWellFormed(datastreams.entries[k], k, things', sensors', properties')
    {
      assert DatastreamWellFormed(datastreams.entries[k], k, things, sensors, properties);
    }
  }

  /** Registering more Datastreams keeps every Observation's reference resolvable. */
  lemma ResolveMonotone(observations: seq<Observation>, datastreams: Registry<Datastream>, datastreams': Registry<Datastream>)
    requires ObservationsResolve(observations, datastreams) && Extends(datastreams, datastreams')
    ensures ObservationsResolve(observations, datastreams')
  {
    forall i | 0 <= i < |observations| ensures RefersTo(observations[i], datastreams') {
      assert IsDatastreamId(datastreams, observations[i].datastream);
      var k :| k in datastreams.entries && observations[i].datastream == DatastreamId(k);
      assert k in datastreams'.entries;
    }
  }

  // ------------------------------------------------------------ create_thing

  /**
   * `create_thing`: the Thing of a station, created on first sight of its natural key.
   * A later call with the same key returns the stored Thing unchanged, so the first
   * call's name, description and category persist.
   */
  function CreateThing(s: State, v: Variant, site: Site, idMs: string, category: string): (r: (State, Thing))
    ensures var key := ThingKey(v, site, idMs);
      && r.0 == s.(things := r.0.things)
      && key in r.0.things.entries && r.1 == r.0.things.entries[key]
      && (key in s.things.entries ==> r == (s, s.things.entries[key]))
      && (key !in s.things.entries ==>
            r.1 == NewThing(v, key, site, idMs, category) && r.0.things.order == s.things.order + [key])
      && Grows(s, r.0)
  {
    var key := ThingKey(v, site, idMs);
    var (things, thing) := CreateOrGet(s.things, key, NewThing(v, key, site, idMs, category));
    (s.(things := things), thing)
  }

  /** Creating a Thing keeps the invariant, and the Thing returned carries the id of its key. */
  lemma CreateThingKeepsInv(s: State, v: Variant, site: Site, idMs: string, category: string)
    requires Inv(s)
    ensures var r := CreateThing(s, v, site, idMs, category);
            Inv(r.0) && r.1.id == ThingId(ThingKey(v, site, idMs))
  {
    var key := ThingKey(v, site, idMs);
    CreateOrGetKeepsValid(s.things, key, NewThing(v, key, site, idMs, category));
    var r := CreateThing(s, v, site, idMs, category);
    WellFormedMonotone(s.datastreams, s.things, s.sensors, s.observedProperties, r.0.things, s.sensors, s.observedProperties);
  }

  /**
   * A second call for the same station returns the first call's Thing and changes
   * nothing, whatever category it passes: the first category persists.
   */
  lemma CreateThingTwice(s: State, v: Variant, site: Site, idMs: string, first: string, second: string)
    requires ThingKey(v, site, idMs) !in s.things.entries
    ensures var (s1, t1) := CreateThing(s, v, site, idMs, first);
            && CreateThing(s1, v, site, idMs, second) == (s1, t1)
            && t1.category == first
  {
    var key := ThingKey(v, site, idMs);
    CreateOrGetTwice(s.things, key, NewThing(v, key, site, idMs, first), NewThing(v, key, site, idMs, second));
  }

  /** The Thing returned carries the id of its key, whether created now or before. */
  lemma CreateThingId(s: State, v: Variant, site: Site, idMs: string, category: string)
    requires ThingIdsMatch(s.things)
    ensures var r := CreateThing(s, v, site, idMs, category);
            ThingIdsMatch(r.0.things) && r.1.id == ThingId(ThingKey(v, site, idMs))
  {
  }

  // --------------------------------------------------------- create_location

  /**
   * `create_location`: exactly one Location per Thing id, created on first sight
   * of the id and always at the point (0, 0).
   */
  function CreateLocation(s: State, v: Variant, thingKey: string, thingId: string, site: Site): (r: State)
    ensures r == s.(locations := r.locations)
    ensures thingId in r.locations.entries
    ensures thingId in s.locations.entries ==> r == s
    ensures thingId !in s.locations.entries ==>
      && r.locations.entries[thingId] == NewLocation(v, thingKey, thingId, site)
      && r.locations.order == s.locations.order + [thingId]
    ensures Grows(s, r)
  {
    var (locations, _) := CreateOrGet(s.locations, thingId, NewLocation(v, thingKey, thingId, site));
    s.(locations := locations)
  }

  lemma CreateLocationKeepsInv(s: State, v: Variant, thingKey: string, thingId: string, site: Site)
    requires Inv(s)
    ensures Inv(CreateLocation(s, v, thingKey, thingId, site))
  {
    CreateOrGetKeepsValid(s.locations, thingId, NewLocation(v, thingKey, thingId, site));
  }

  // ------------------------------------------- create_observed_property / create_sensor

  /** `create_observed_property`: one ObservedProperty per measurement code. */
  function CreateObservedProperty(s: State, code: string): (r: (State, ObservedProperty))
    ensures r.0 == s.(observedProperties := r.0.observedProperties)
    ensures code in r.0.observedProperties.entries && r.1 == r.0.observedProperties.entries[code]
    ensures code in s.observedProperties.entries ==> r == (s, s.observedProperties.entries[code])
    ensures code !in s.observedProperties.entries ==>
      r.1 == NewObservedProperty(code) && r.0.observedProperties.order == s.observedProperties.order + [code]
    ensures Grows(s, r.0)
  {
    var (properties, property) := CreateOrGet(s.observedProperties, code, NewObservedProperty(code));
    (s.(observedProperties := properties), property)
  }

  /** Creating an ObservedProperty keeps the invariant; the one returned is the code's. */
  lemma CreateObservedPropertyKeepsInv(s: State, code: string)
    requires Inv(s)
    ensures var r := CreateObservedProperty(s, code);
            Inv(r.0) && r.1 == NewObservedProperty(code)
  {
    CreateOrGetKeepsValid(s.observedProperties, code, NewObservedProperty(code));
    var r := CreateObservedProperty(s, code);
    WellFormedMonotone(s.datastreams, s.things, s.sensors, s.observedProperties, s.things, s.sensors, r.0.observedProperties);
  }

  /** `create_sensor`: one Sensor per measurement code. */
  function CreateSensor(s: State, code: string): (r: (State, Sensor))
    ensures r.0 == s.(sensors := r.0.sensors)
    ensures code in r.0.sensors.entries && r.1 == r.0.sensors.entries[code]
    ensures code in s.sensors.entries ==> r == (s, s.sensors.entries[code])
    ensures code !in s.sensors.entries ==> r.1 == NewSensor(code) && r.0.sensors.order == s.sensors.order + [code]
    ensures Grows(s, r.0)
  {
    var (sensors, sensor) := CreateOrGet(s.sensors, code, NewSensor(code));
    (s.(sensors := sensors), sensor)
  }

  /** Creating a Sensor keeps the invariant; the one returned is the code's. */
  lemma CreateSensorKeepsInv(s: State, code: string)
    requires Inv(s)
    ensures var r := CreateSensor(s, code);
            Inv(r.0) && r.1 == NewSensor(code)
  {
    CreateOrGetKeepsValid(s.sensors, code, NewSensor(code));
    var r := CreateSensor(s, code);
    WellFormedMonotone(s.datastreams, s.things, s.sensors, s.observedProperties, s.things, r.0.sensors, s.observedProperties);
  }

  // ------------------------------------------------------- create_datastream

  /** The conditions under which registering `d` under `key` keeps the invariant. */
  ghost predicate Storable(s: State, key: string, d: Datastream) {
    key !in s.datastreams.entries ==> DatastreamWellFormed(d, key, s.things, s.sensors, s.observedProperties)
  }

  /** Registers `d` under `key` after its Sensor and ObservedProperty have been created-or-got. */
  function StoreDatastream(s: State, key: string, d: Datastream): (r: (State, Datastream))
    ensures r.0 == s.(datastreams := r.0.datastreams)
    ensures key in r.0.datastreams.entries && r.1 == r.0.datastreams.entries[key]
    ensures key in s.datastreams.entries ==> r == (s, s.datastreams.entries[key])
    ensures key !in s.datastreams.entries ==> r.1 == d && r.0.datastreams.order == s.datastreams.order + [key]
    ensures Grows(s, r.0)
  {
    var (datastreams, stored) := CreateOrGet(s.datastreams, key, d);
    (s.(datastreams := datastreams), stored)
  }

  lemma StoreDatastreamKeepsInv(s: State, key: string, d: Datastream)
    requires Inv(s) && Storable(s, key, d)
    ensures Inv(StoreDatastream(s, key, d).0)
  {
    CreateOrGetKeepsValid(s.datastreams, key, d);
    var datastreams := StoreDatastream(s, key, d).0.datastreams;
    ResolveMonotone(s.observations, s.datastreams, datastreams);
    forall k | k in datastreams.entries
      ensures DatastreamWellFormed(datastreams.entries[k], k, s.things, s.sensors, s.observedProperties)
    {
      if k in s.datastreams.entries {
        assert DatastreamWellFormed(s.datastreams.entries[k], k, s.things, s.sensors, s.observedProperties);
      }
    }
  }

  /**
   * `create_datastream` and its inline twin: the Datastream of one Thing and one
   * measurement code. The station-keyed converter creates the Sensor and then the
   * ObservedProperty only when the Datastream is new; the legend-keyed one
   * creates-or-gets the ObservedProperty and then the Sensor for every cell. Either
   * way the Datastream is stored after them, and an unknown code is no error: it
   * gets the "Unknown" unit.
   */
  function CreateDatastream(s: State, v: Variant, thingKey: string, thingId: string, site: Site, code: string)
    : (r: (State, Datastream))
    ensures var key := DatastreamKey(v, thingId, code, site);
      && key in r.0.datastreams.entries && r.1 == r.0.datastreams.entries[key]
      && (key in s.datastreams.entries ==> r.1 == s.datastreams.entries[key])
      && (key !in s.datastreams.entries ==>
            && r.0.datastreams.order == s.datastreams.order + [key]
            && r.1 == NewDatastream(v, key, thingKey, thingId, code, site, r.1.sensor, r.1.observedProperty))
      && (v.LegendKeyed? ==> code in r.0.sensors.entries && code in r.0.observedProperties.entries)
    ensures r.0.things == s.things && r.0.locations == s.locations && r.0.observations == s.observations
    ensures Grows(s, r.0)
  {
    var key := DatastreamKey(v, thingId, code, site);
    match v
    case StationKeyed =>
      if key in s.datastreams.entries then
        (s, s.datastreams.entries[key])
      else
        var (s1, sensor) := CreateSensor(s, code);
        var (s2, property) := CreateObservedProperty(s1, code);
        GrowsTransitive(s, s1, s2);
        var r := StoreDatastream(s2, key, NewDatastream(v, key, thingKey, thingId, code, site, sensor, property));
        GrowsTransitive(s, s2, r.0);
        r
    case LegendKeyed =>
      var (s1, property) := CreateObservedProperty(s, code);
      var (s2, sensor) := CreateSensor(s1, code);
      GrowsTransitive(s, s1, s2);
      var r := StoreDatastream(s2, key, NewDatastream(v, key, thingKey, thingId, code, site, sensor, property));
      GrowsTransitive(s, s2, r.0);
      r
  }

  /** Creating a Datastream for a registered Thing keeps the invariant. */
  lemma CreateDatastreamKeepsInv(s: State, v: Variant, thingKey: string, thingId: string, site: Site, code: string)
    requires Inv(s) && thingKey in s.things.entries
    ensures Inv(CreateDatastream(s, v, thingKey, thingId, site, code).0)
  {
    var key := DatastreamKey(v, thingId, code, site);
    var d := NewDatastream(v, key, thingKey, thingId, code, site, NewSensor(code), NewObservedProperty(code));
    match v
    case StationKeyed =>
      if key !in s.datastreams.entries {
        CreateSensorKeepsInv(s, code);
        var s1 := CreateSensor(s, code).0;
        CreateObservedPropertyKeepsInv(s1, code);
        var s2 := CreateObservedProperty(s1, code).0;
        assert Storable(s2, key, d);
        StoreDatastreamKeepsInv(s2, key, d);
      }
    case LegendKeyed =>
      CreateObservedPropertyKeepsInv(s, code);
      var s1 := CreateObservedProperty(s, code).0;
      CreateSensorKeepsInv(s1, code);
      var s2 := CreateSensor(s1, code).0;
      assert Storable(s2, key, d);
      StoreDatastreamKeepsInv(s2, key, d);
  }

  /** The Datastream returned carries the `@iot.id` of its key, whether created now or before. */
  lemma CreateDatastreamId(s: State, v: Variant, thingKey: string, thingId: string, site: Site, code: string)
    requires DatastreamIdsMatch(s.datastreams)
    ensures var r := CreateDatastream(s, v, thingKey, thingId, site, code);
            && DatastreamIdsMatch(r.0.datastreams)
            && r.1.id == DatastreamId(DatastreamKey(v, thingId, code, site))
  {
  }

  // ------------------------------------------------------ create_observation

  /**
   * `create_observation`: appends exactly one Observation whose phenomenon time and
   * result time are both the row's timestamp.
   */
  function CreateObservation(s: State, datastreamId: string, timestamp: Cell, value: real): (r: State)
    ensures r.observations == s.observations + [Observation(timestamp, timestamp, value, datastreamId)]
    ensures r == s.(observations := r.observations)
    ensures Grows(s, r)
  {
    s.(observations := s.observations + [Observation(timestamp, timestamp, value, datastreamId)])
  }

  /** Appending an Observation for a registered Datastream keeps the invariant. */
  lemma CreateObservationKeepsInv(s: State, datastreamId: string, timestamp: Cell, value: real)
    requires Inv(s) && IsDatastreamId(s.datastreams, datastreamId)
    ensures Inv(CreateObservation(s, datastreamId, timestamp, value))
  {
    AppendResolves(s.observations, s.datastreams, Observation(timestamp, timestamp, value, datastreamId));
  }

  lemma AppendResolves(observations: seq<Observation>, datastreams: Registry<Datastream>, o: Observation)
    requires ObservationsResolve(observations, datastreams) && RefersTo(o, datastreams)
    ensures ObservationsResolve(observations + [o], datastreams)
  {
    forall i | 0 <= i < |observations| + 1 ensures RefersTo((observations + [o])[i], datastreams) {
      if i < |observations| {
        assert RefersTo(observations[i], datastreams);
      }
    }
  }
}

=== FILE: pivot.dfy ===
/**
 * The reference reading of a wide measurement sheet, with no entity state at all:
 * each present cell in a measurement column of a timestamped row is one reading
 * of (station, timestamp, code, value). The converters are proved to append
 * exactly these readings, in this order, as Observations.
 */
module Pivot {
  import opened Wrappers
  import opened Strings
  import opened Table
  import opened Entities
  import opened Legend

  /** One value of the long format. */
  datatype Reading = Reading(idMs: string, timestamp: Cell, code: string, value: real)

  /** What a sheet's name decides: the Things' category and the timestamp column. */
  datatype Role = Role(category: string, timestampColumn: string)

  /** The category and timestamp column of a measurement sheet, by the converters' if/elif chains. */
  function RoleOf(sheetName: string): (r: Role)
    ensures sheetName == "FREIFLÄCHE" ==> r == Role("Weather Station", "DATUM_ZEIT")
    ensures sheetName != "FREIFLÄCHE" && (Contains(sheetName, "Boden") || Contains(sheetName, "Tension")) ==>
              r.category == "Soil Sensor"
    ensures sheetName != "FREIFLÄCHE" && !Contains(sheetName, "Boden") && !Contains(sheetName, "Tension") ==>
              r.category == "Generic Sensor"
    ensures sheetName == "Boden+Lufttemp_Bestand C°" ==> r.timestampColumn == "DATUMZEIT"
    ensures sheetName != "FREIFLÄCHE" && sheetName != "Boden+Lufttemp_Bestand C°" ==> r.timestampColumn == "DATUM"
  {
    var category :=
      if sheetName == "FREIFLÄCHE" then "Weather Station"
      else if Contains(sheetName, "Boden") || Contains(sheetName, "Tension") then "Soil Sensor"
      else "Generic Sensor";
    var timestampColumn :=
      if sheetName == "FREIFLÄCHE" then "DATUM_ZEIT"
      else if sheetName == "Boden+Lufttemp_Bestand C°" then "DATUMZEIT"
      else "DATUM";
    Role(category, timestampColumn)
  }

  /** A column holding measurements: not the station column, not the timestamp column, not an unnamed filler. */
  predicate IsMeasurementColumn(column: string, timestampColumn: string) {
    column != "ID_MS" && column != timestampColumn && !StartsWith(column, "Unnamed")
  }

  /** The measurement code of a column header: the text before its first blank ("TEMP [C°]" is "TEMP"). */
  function CodeOf(column: string): (code: string)
    ensures code <= column && ' ' !in code
    ensures code == column || column[|code|] == ' '
  {
    Before(column, ' ')
  }

  /** The cells of a row the conversion reads: present cells in measurement columns from `j` on. */
  function PresentCells(columns: seq<string>, row: Row, timestampColumn: string, j: nat): (n: nat)
    requires j <= |columns|
    ensures n <= |columns| - j
    decreases |columns| - j
  {
    if j == |columns| then 0
    else if IsMeasurementColumn(columns[j], timestampColumn) && !CellAt(row, j).Missing? then
      1 + PresentCells(columns, row, timestampColumn, j + 1)
    else PresentCells(columns, row, timestampColumn, j + 1)
  }

  /** Some present cell in a measurement column from `j` on is not a number. */
  ghost predicate HasNonNumeric(columns: seq<string>, row: Row, timestampColumn: string, j: nat) {
    exists i :: j <= i < |columns| && IsMeasurementColumn(columns[i], timestampColumn)
      && !CellAt(row, i).Missing? && AsFloat(CellAt(row, i)).None?
  }

  /**
   * Reading `rd` comes from column `i` of `row`: a measurement column with a present
   * cell, the column header's code and the cell's `float()` value.
   */
  ghost predicate ReadFrom(columns: seq<string>, row: Row, timestampColumn: string, i: nat, rd: Reading) {
    && i < |columns|
    && IsMeasurementColumn(columns[i], timestampColumn)
    && !CellAt(row, i).Missing?
    && rd.code == CodeOf(columns[i])
    && AsFloat(CellAt(row, i)) == Some(rd.value)
  }

  /** Reading `rd` comes from some column of `row` from `j` on. */
  ghost predicate ReadAfter(columns: seq<string>, row: Row, timestampColumn: string, j: nat, rd: Reading) {
    exists i: nat :: j <= i && ReadFrom(columns, row, timestampColumn, i, rd)
  }

  /** Every reading of `rs` comes from some column of `row` from `j` on. */
  ghost predicate ReadAllFrom(columns: seq<string>, row: Row, timestampColumn: string, j: nat, rs: seq<Reading>) {
    forall k :: 0 <= k < |rs| ==> ReadAfter(columns, row, timestampColumn, j, rs[k])
  }

  lemma ReadAllFromShift(columns: seq<string>, row: Row, timestampColumn: string, j: nat, rs: seq<Reading>)
    requires ReadAllFrom(columns, row, timestampColumn, j + 1, rs)
    ensures ReadAllFrom(columns, row, timestampColumn, j, rs)
  {
    forall k | 0 <= k < |rs| ensures ReadAfter(columns, row, timestampColumn, j, rs[k]) {
      var i :| j + 1 <= i && ReadFrom(columns, row, timestampColumn, i, rs[k]);
    }
  }

  lemma ReadAllFromCons(columns: seq<string>, row: Row, timestampColumn: string, j: nat, rd: Reading, rs: seq<Reading>)
    requires ReadFrom(columns, row, timestampColumn, j, rd)
    requires ReadAllFrom(columns, row, timestampColumn, j + 1, rs)
    ensures ReadAllFrom(columns, row, timestampColumn, j, [rd] + rs)
  {
    ReadAllFromShift(columns, row, timestampColumn, j, rs);
    var all := [rd] + rs;
    forall k | 0 <= k < |all| ensures ReadAfter(columns, row, timestampColumn, j, all[k]) {
      if k == 0 {
        assert ReadFrom(columns, row, timestampColumn, j, all[0]);
      } else {
        assert all[k] == rs[k - 1];
      }
    }
  }

  /** The columns from `j` on whose cells the conversion reads, left to right. */
  function PresentColumns(columns: seq<string>, row: Row, timestampColumn: string, j: nat): seq<nat>
    requires j <= |columns|
    decreases |columns| - j
  {
    if j == |columns| then []
    else if IsMeasurementColumn(columns[j], timestampColumn) && !CellAt(row, j).Missing? then
      [j] + PresentColumns(columns, row, timestampColumn, j + 1)
    else PresentColumns(columns, row, timestampColumn, j + 1)
  }

  /**
   * The columns read are exactly the measurement columns from `j` on with a present
   * cell, each once, in increasing order.
   */
  lemma {:induction false} PresentColumnsExactly(columns: seq<string>, row: Row, timestampColumn: string, j: nat)
    requires j <= |columns|
    ensures var idx := PresentColumns(columns, row, timestampColumn, j);
            && (forall k :: 0 <= k < |idx| ==>
                  j <= idx[k] < |columns| && IsMeasurementColumn(columns[idx[k]], timestampColumn)
                  && !CellAt(row, idx[k]).Missing?)
            && (forall k, l :: 0 <= k < l < |idx| ==> idx[k] < idx[l])
            && (forall i :: (j <= i < |columns| && IsMeasurementColumn(columns[i], timestampColumn)
                             && !CellAt(row, i).Missing?) ==> i in idx)
    decreases |columns| - j
  {
    if j < |columns| {
      PresentColumnsExactly(columns, row, timestampColumn, j + 1);
      var rest := PresentColumns(columns, row, timestampColumn, j + 1);
      if IsMeasurementColumn(columns[j], timestampColumn) && !CellAt(row, j).Missing? {
        var idx := [j] + rest;
        forall k | 1 <= k < |idx| ensures idx[k] == rest[k - 1] { }
      }
    }
  }

  /** Reading `k` of `rs` comes from column `idx[k]`, for every `k`. */
  ghost predicate ReadInOrder(columns: seq<string>, row: Row, timestampColumn: string, idx: seq<nat>, rs: seq<Reading>) {
    |rs| == |idx| && forall k :: 0 <= k < |idx| ==> ReadFrom(columns, row, timestampColumn, idx[k], rs[k])
  }

  lemma ReadInOrderCons(columns: seq<string>, row: Row, timestampColumn: string, i: nat, idx: seq<nat>,
                        rd: Reading, rs: seq<Reading>)
    requires ReadFrom(columns, row, timestampColumn, i, rd)
    requires ReadInOrder(columns, row, timestampColumn, idx, rs)
    ensures ReadInOrder(columns, row, timestampColumn, [i] + idx, [rd] + rs)
  {
    var idx', rs' := [i] + idx, [rd] + rs;
    forall k | 0 <= k < |idx'| ensures ReadFrom(columns, row, timestampColumn, idx'[k], rs'[k]) {
      if k > 0 {
        assert idx'[k] == idx[k - 1] && rs'[k] == rs[k - 1];
      }
    }
  }

  /**
   * The readings of one timestamped row from column `j` on: one per present measurement
   * cell, in column order; the first present non-numeric measurement cell is the error.
   */
  function CellReadings(columns: seq<string>, row: Row, timestampColumn: string, idMs: string, timestamp: Cell,
                        j: nat): (r: Result<seq<Reading>, Error>)
    requires j <= |columns|
    ensures r.Failure? <==> HasNonNumeric(columns, row, timestampColumn, j)
    ensures r.Failure? ==> r.error.NotNumeric?
    ensures r.Success? ==> |r.value| == PresentCells(columns, row, timestampColumn, j)
    ensures r.Success? ==> forall k :: 0 <= k < |r.value| ==>
              r.value[k].idMs == idMs && r.value[k].timestamp == timestamp
    ensures r.Success? ==> ReadAllFrom(columns, row, timestampColumn, j, r.value)
    decreases |columns| - j
  {
    if j == |columns| then Success([])
    else
      var column := columns[j];
      var cell := CellAt(row, j);
      if !IsMeasurementColumn(column, timestampColumn) || cell.Missing? then
        var r := CellReadings(columns, row, timestampColumn, idMs, timestamp, j + 1);
        if r.Success? then ReadAllFromShift(columns, row, timestampColumn, j, r.value); r else r
      else
        match AsFloat(cell)
        case None => Failure(NotNumeric(column, cell))
        case Some(value) =>
          var rest :- CellReadings(columns, row, timestampColumn, idMs, timestamp, j + 1);
          var reading := Reading(idMs, timestamp, CodeOf(column), value);
          ReadAllFromCons(columns, row, timestampColumn, j, reading, rest);
          Success([reading] + rest)
  }

  /**
   * A row's readings are exactly its present measurement cells, in column order:
   * reading `k` comes from the `k`-th such column, with that column's code and the
   * cell's `float()` value.
   */
  lemma {:induction false} CellReadingsInOrder(columns: seq<string>, row: Row, timestampColumn: string, idMs: string,
                                               timestamp: Cell, j: nat)
    requires j <= |columns|
    ensures var r := CellReadings(columns, row, timestampColumn, idMs, timestamp, j);
            r.Success? ==> ReadInOrder(columns, row, timestampColumn, PresentColumns(columns, row, timestampColumn, j), r.value)
    decreases |columns| - j
  {
    if j < |columns| {
      CellReadingsInOrder(columns, row, timestampColumn, idMs, timestamp, j + 1);
      var cell := CellAt(row, j);
      if IsMeasurementColumn(columns[j], timestampColumn) && !cell.Missing? && AsFloat(cell).Some? {
        var rest := CellReadings(columns, row, timestampColumn, idMs, timestamp, j + 1);
        if rest.Success? {
          var reading := Reading(idMs, timestamp, CodeOf(columns[j]), AsFloat(cell).value);
          ReadInOrderCons(columns, row, timestampColumn, j, PresentColumns(columns, row, timestampColumn, j + 1),
                          reading, rest.value);
        }
      }
    }
  }

  /**
   * The readings of one data row: none when its timestamp is missing. A sheet
   * without the station or the timestamp column fails on its first row.
   */
  function RowReadings(columns: seq<string>, row: Row, timestampColumn: string): (r: Result<seq<Reading>, Error>)
    ensures "ID_MS" !in columns ==> r == Failure(MissingColumn("ID_MS"))
    ensures "ID_MS" in columns && timestampColumn !in columns ==> r == Failure(MissingColumn(timestampColumn))
  {
    var idCell :- Get(columns, row, "ID_MS");
    var timestamp :- Get(columns, row, timestampColumn);
    if timestamp.Missing? then Success([])
    else CellReadings(columns, row, timestampColumn, Str(idCell), IsoFormat(timestamp), 0)
  }

  /** The readings of rows `i..` in row order; the first failing row decides the error. */
  function RowsReadings(columns: seq<string>, rows: seq<Row>, timestampColumn: string, i: nat)
    : (r: Result<seq<Reading>, Error>)
    requires i <= |rows|
    ensures i == |rows| ==> r == Success([])
    decreases |rows| - i
  {
    if i == |rows| then Success([])
    else
      var first :- RowReadings(columns, rows[i], timestampColumn);
      var rest :- RowsReadings(columns, rows, timestampColumn, i + 1);
      Success(first + rest)
  }

  /**
   * The readings of one sheet: none from the legend sheet; none from a sheet the
   * legend-keyed converter skips for lacking its station or timestamp column.
   */
  function SheetReadings(v: Variant, sheet: Sheet): (r: Result<seq<Reading>, Error>)
    ensures sheet.name == "LEGENDE" ==> r == Success([])
    ensures v.LegendKeyed? ==> r.Failure? ==> r.error.NotNumeric?
  {
    if sheet.name == "LEGENDE" then Success([])
    else
      var timestampColumn := RoleOf(sheet.name).timestampColumn;
      if v.LegendKeyed? && ("ID_MS" !in sheet.columns || timestampColumn !in sheet.columns) then Success([])
      else
        var r := RowsReadings(sheet.columns, sheet.rows, timestampColumn, 0);
        SheetReadingsError(v, sheet.columns, sheet.rows, timestampColumn, 0);
        r
  }

  /** With both key columns present, a row can only fail on a non-numeric value. */
  lemma {:induction false} SheetReadingsError(v: Variant, columns: seq<string>, rows: seq<Row>, timestampColumn: string, i: nat)
    requires i <= |rows|
    requires v.LegendKeyed? ==> "ID_MS" in columns && timestampColumn in columns
    ensures var r := RowsReadings(columns, rows, timestampColumn, i);
            v.LegendKeyed? && r.Failure? ==> r.error.NotNumeric?
    decreases |rows| - i
  {
    if i < |rows| {
      SheetReadingsError(v, columns, rows, timestampColumn, i + 1);
    }
  }

  /**
   * `t` is the timestamp some row from `i` on gives its readings: the ISO form of a
   * present cell in the (first) timestamp column.
   */
  ghost predicate StampedBy(columns: seq<string>, rows: seq<Row>, timestampColumn: string, i: nat, t: Cell) {
    timestampColumn in columns &&
    exists r :: i <= r < |rows| &&
      var cell := CellAt(rows[r], IndexOf(columns, timestampColumn).value);
      !cell.Missing? && t == IsoFormat(cell)
  }

  /** Every reading of rows `i..` carries the timestamp of the row it came from. */
  lemma {:induction false} RowsReadingsStamped(columns: seq<string>, rows: seq<Row>, timestampColumn: string, i: nat)
    requires i <= |rows|
    ensures var r := RowsReadings(columns, rows, timestampColumn, i);
            r.Success? ==> forall k :: 0 <= k < |r.value| ==> StampedBy(columns, rows, timestampColumn, i, r.value[k].timestamp)
    decreases |rows| - i
  {
    if i < |rows| {
      RowsReadingsStamped(columns, rows, timestampColumn, i + 1);
      var r := RowsReadings(columns, rows, timestampColumn, i);
      if r.Success? {
        var first := RowReadings(columns, rows[i], timestampColumn).value;
        var rest := RowsReadings(columns, rows, timestampColumn, i + 1).value;
        assert r.value == first + rest;
        forall k | 0 <= k < |r.value| ensures StampedBy(columns, rows, timestampColumn, i, r.value[k].timestamp) {
          if k < |first| {
            assert r.value[k] == first[k];
            assert CellAt(rows[i], IndexOf(columns, timestampColumn).value) == Get(columns, rows[i], timestampColumn).value;
          } else {
            assert r.value[k] == rest[k - |first|];
          }
        }
      }
    }
  }

  /**
   * Every reading of a measurement sheet is stamped from the timestamp column its
   * name selects ("DATUM_ZEIT", "DATUMZEIT" or "DATUM"), a datetime as its ISO string.
   */
  lemma SheetReadingsStamped(v: Variant, sheet: Sheet)
    ensures var r := SheetReadings(v, sheet);
            r.Success? ==> forall k :: 0 <= k < |r.value| ==>
              StampedBy(sheet.columns, sheet.rows, RoleOf(sheet.name).timestampColumn, 0, r.value[k].timestamp)
  {
    var timestampColumn := RoleOf(sheet.name).timestampColumn;
    RowsReadingsStamped(sheet.columns, sheet.rows, timestampColumn, 0);
    if sheet.name != "LEGENDE" && !(v.LegendKeyed? && ("ID_MS" !in sheet.columns || timestampColumn !in sheet.columns)) {
      assert SheetReadings(v, sheet) == RowsReadings(sheet.columns, sheet.rows, timestampColumn, 0);
    }
  }

  /** The readings of sheets `i..` in workbook order. */
  function SheetsReadings(v: Variant, wb: Workbook, i: nat): (r: Result<seq<Reading>, Error>)
    requires i <= |wb|
    ensures i == |wb| ==> r == Success([])
    decreases |wb| - i
  {
    if i == |wb| then Success([])
    else
      var first :- SheetReadings(v, wb[i]);
      var rest :- SheetsReadings(v, wb, i + 1);
      Success(first + rest)
  }

  // ------------------------------------------------------------- tagging

  /** The Datastream a reading belongs to: the one of its station's Thing and its code. */
  function DatastreamIdFor(v: Variant, legend: LegendMap, idMs: string, code: string): string {
    var site := SiteOf(legend, idMs);
    DatastreamId(DatastreamKey(v, ThingId(ThingKey(v, site, idMs)), code, site))
  }

  /** A reading as the Observation the converters record for it. */
  function ObservationOf(v: Variant, legend: LegendMap, r: Reading): (o: Observation)
    ensures o.phenomenonTime == r.timestamp && o.resultTime == r.timestamp && o.result == r.value
    ensures o.datastream == DatastreamIdFor(v, legend, r.idMs, r.code)
  {
    Observation(r.timestamp, r.timestamp, r.value, DatastreamIdFor(v, legend, r.idMs, r.code))
  }

  function Tag(v: Variant, legend: LegendMap, rs: seq<Reading>): (os: seq<Observation>)
    ensures |os| == |rs|
    ensures forall k :: 0 <= k < |rs| ==> os[k] == ObservationOf(v, legend, rs[k])
  {
    seq(|rs|, k requires 0 <= k < |rs| => ObservationOf(v, legend, rs[k]))
  }

  lemma TagAppend(v: Variant, legend: LegendMap, a: seq<Reading>, b: seq<Reading>)
    ensures Tag(v, legend, a + b) == Tag(v, legend, a) + Tag(v, legend, b)
  {
  }
}

=== FILE: process.dfy ===
/**
 * The conversion loop: sheets in workbook order, rows in sheet order, cells in
 * column order, each present measurement cell creating-or-getting its entities
 * and appending one Observation. A KeyError or a `float()` failure aborts the
 * whole conversion, so every step returns a `Result`.
 */
module Process {
  import opened Wrappers
  import opened Strings
  import opened Table
  import opened Registry
  import opened Entities
  import opened Legend
  import opened Materializer
  import opened Pivot

  /**
   * The measurement cells of one timestamped row from column `j` on: each present
   * value creates-or-gets the Datastream of its Thing and code, and is then
   * converted with `float()` and appended as an Observation.
   */
  function ProcessCells(v: Variant, s: State, thingKey: string, thingId: string, site: Site, timestamp: Cell,
                        columns: seq<string>, row: Row, timestampColumn: string, j: nat): (r: Result<State, Error>)
    requires j <= |columns|
    ensures r.Success? ==> Grows(s, r.value) && r.value.things == s.things && r.value.locations == s.locations
    decreases |columns| - j
  {
    if j == |columns| then Success(s)
    else
      var column := columns[j];
      var cell := CellAt(row, j);
      if !IsMeasurementColumn(column, timestampColumn) || cell.Missing? then
        ProcessCells(v, s, thingKey, thingId, site, timestamp, columns, row, timestampColumn, j + 1)
      else
        match AsFloat(cell)
        case None => Failure(NotNumeric(column, cell))
        case Some(value) =>
          var s1 := RecordValue(v, s, thingKey, thingId, site, timestamp, CodeOf(column), value);
          var r := ProcessCells(v, s1, thingKey, thingId, site, timestamp, columns, row, timestampColumn, j + 1);
          if r.Success? then GrowsTransitive(s, s1, r.value); r else r
  }

  /**
   * One present measurement value: the Datastream of the row's Thing and the
   * value's code is created-or-got, then one Observation is appended for it.
   */
  function RecordValue(v: Variant, s: State, thingKey: string, thingId: string, site: Site, timestamp: Cell,
                       code: string, value: real): (r: State)
    ensures Grows(s, r) && r.things == s.things && r.locations == s.locations
  {
    var (s1, datastream) := CreateDatastream(s, v, thingKey, thingId, site, code);
    var s2 := CreateObservation(s1, datastream.id, timestamp, value);
    GrowsTransitive(s, s1, s2);
    s2
  }

  /**
   * One data row: the row's station Thing and its Location are created-or-got
   * first, whatever follows; a row with a missing timestamp stops there.
   */
  function ProcessRow(v: Variant, legend: LegendMap, category: string, timestampColumn: string,
                      columns: seq<string>, s: State, row: Row): (r: Result<State, Error>)
    ensures r.Success? ==> Grows(s, r.value)
  {
    var idCell :- Get(columns, row, "ID_MS");
    var idMs := Str(idCell);
    var site := SiteOf(legend, idMs);
    var thingKey := ThingKey(v, site, idMs);
    var (s1, thing) := CreateThing(s, v, site, idMs, category);
    var s2 := CreateLocation(s1, v, thingKey, thing.id, site);
    GrowsTransitive(s, s1, s2);
    var timestamp :- Get(columns, row, timestampColumn);
    if timestamp.Missing? then Success(s2)
    else
      var r := ProcessCells(v, s2, thingKey, thing.id, site, IsoFormat(timestamp), columns, row, timestampColumn, 0);
      if r.Success? then GrowsTransitive(s, s2, r.value); r else r
  }

  /** Rows `i..` of a sheet, in order. */
  function ProcessRows(v: Variant, legend: LegendMap, category: string, timestampColumn: string,
                       columns: seq<string>, s: State, rows: seq<Row>, i: nat): (r: Result<State, Error>)
    requires i <= |rows|
    ensures r.Success? ==> Grows(s, r.value)
    decreases |rows| - i
  {
    if i == |rows| then Success(s)
    else
      var s1 :- ProcessRow(v, legend, category, timestampColumn, columns, s, rows[i]);
      var r := ProcessRows(v, legend, category, timestampColumn, columns, s1, rows, i + 1);
      if r.Success? then GrowsTransitive(s, s1, r.value); r else r
  }

  /**
   * `process_sheet` and its inline twin: the legend sheet is skipped, the sheet name
   * picks the category and the timestamp column, and the legend-keyed converter
   * also skips a sheet lacking the station or the timestamp column.
   */
  function ProcessSheet(v: Variant, legend: LegendMap, s: State, sheet: Sheet): (r: Result<State, Error>)
    ensures sheet.name == "LEGENDE" ==> r == Success(s)
    ensures (&& sheet.name != "LEGENDE" && v.LegendKeyed?
             && ("ID_MS" !in sheet.columns || RoleOf(sheet.name).timestampColumn !in sheet.columns)) ==> r == Success(s)
    ensures r.Success? ==> Grows(s, r.value)
  {
    if sheet.name == "LEGENDE" then Success(s)
    else
      var role := RoleOf(sheet.name);
      if v.LegendKeyed? && ("ID_MS" !in sheet.columns || role.timestampColumn !in sheet.columns) then Success(s)
      else ProcessRows(v, legend, role.category, role.timestampColumn, sheet.columns, s, sheet.rows, 0)
  }

  /** Sheets `i..` of the workbook, in order. */
  function ProcessSheets(v: Variant, legend: LegendMap, s: State, wb: Workbook, i: nat): (r: Result<State, Error>)
    requires i <= |wb|
    ensures r.Success? ==> Grows(s, r.value)
    decreases |wb| - i
  {
    if i == |wb| then Success(s)
    else
      var s1 :- ProcessSheet(v, legend, s, wb[i]);
      var r := ProcessSheets(v, legend, s1, wb, i + 1);
      if r.Success? then GrowsTransitive(s, s1, r.value); r else r
  }

  // ------------------------------------------------ agreement with the pivot

  /** Every stored Thing and Datastream carries the `@iot.id` of its key. */
  ghost predicate IdsMatch(s: State) {
    ThingIdsMatch(s.things) && DatastreamIdsMatch(s.datastreams)
  }

  /**
   * A conversion step `r` from `s` agrees with the pivot's `p`: both fail with the same
   * error or both succeed, the step then appending exactly `p`'s readings as Observations.
   */
  ghost predicate Agrees(v: Variant, legend: LegendMap, s: State, r: Result<State, Error>, p: Result<seq<Reading>, Error>) {
    && (r.Success? <==> p.Success?)
    && (r.Failure? ==> r.error == p.error)
    && (r.Success? ==> IdsMatch(r.value) && r.value.observations == s.observations + Tag(v, legend, p.value))
  }

  /** Two agreeing steps in sequence agree with the concatenation of their readings. */
  lemma ChainAgrees(v: Variant, legend: LegendMap, s: State, first: Result<State, Error>, pFirst: Result<seq<Reading>, Error>,
                    rest: Result<State, Error>, pRest: Result<seq<Reading>, Error>)
    requires Agrees(v, legend, s, first, pFirst) && first.Success?
    requires Agrees(v, legend, first.value, rest, pRest)
    ensures Agrees(v, legend, s, rest, if pRest.Failure? then pRest else Success(pFirst.value + pRest.value))
  {
    if rest.Success? {
      TagAppend(v, legend, pFirst.value, pRest.value);
      AppendAssociative(s.observations, Tag(v, legend, pFirst.value), Tag(v, legend, pRest.value));
    }
  }

  /** The state a row's cells are processed in: the row's Thing key and id are the ones its station gives. */
  ghost predicate ReadyFor(s: State, v: Variant, legend: LegendMap, idMs: string, thingKey: string, thingId: string, site: Site) {
    && DatastreamIdsMatch(s.datastreams)
    && site == SiteOf(legend, idMs)
    && thingKey == ThingKey(v, site, idMs)
    && thingId == ThingId(thingKey)
  }

  /** Recording one value appends exactly the Observation the pivot tags its reading with. */
  lemma RecordValueAgrees(v: Variant, legend: LegendMap, s: State, idMs: string, thingKey: string, thingId: string,
                          site: Site, timestamp: Cell, code: string, value: real)
    requires ReadyFor(s, v, legend, idMs, thingKey, thingId, site)
    ensures var s' := RecordValue(v, s, thingKey, thingId, site, timestamp, code, value);
            && ReadyFor(s', v, legend, idMs, thingKey, thingId, site)
            && s'.observations == s.observations + [ObservationOf(v, legend, Reading(idMs, timestamp, code, value))]
  {
    CreateDatastreamId(s, v, thingKey, thingId, site, code);
  }

  /** Recording one value for a registered Thing keeps the invariant. */
  lemma RecordValueKeepsInv(v: Variant, s: State, thingKey: string, thingId: string, site: Site, timestamp: Cell,
                            code: string, value: real)
    requires Inv(s) && thingKey in s.things.entries
    ensures var s' := RecordValue(v, s, thingKey, thingId, site, timestamp, code, value);
            Inv(s') && thingKey in s'.things.entries
  {
    InvIdsMatch(s);
    CreateDatastreamId(s, v, thingKey, thingId, site, code);
    CreateDatastreamKeepsInv(s, v, thingKey, thingId, site, code);
    var (s1, datastream) := CreateDatastream(s, v, thingKey, thingId, site, code);
    assert IsDatastreamId(s1.datastreams, datastream.id) by {
      var key := DatastreamKey(v, thingId, code, site);
      assert key in s1.datastreams.entries && datastream.id == DatastreamId(key);
    }
    CreateObservationKeepsInv(s1, datastream.id, timestamp, value);
  }

  /**
   * Processing a row's cells fails exactly when the pivot does, with the same error,
   * and otherwise appends exactly the pivot's readings as Observations.
   */
  lemma {:induction false} ProcessCellsAgrees(v: Variant, legend: LegendMap, s: State, idMs: string, thingKey: string,
                                              thingId: string, site: Site, timestamp: Cell,
                                              columns: seq<string>, row: Row, timestampColumn: string, j: nat)
    requires j <= |columns|
    requires ReadyFor(s, v, legend, idMs, thingKey, thingId, site)
    ensures var r := ProcessCells(v, s, thingKey, thingId, site, timestamp, columns, row, timestampColumn, j);
            var p := CellReadings(columns, row, timestampColumn, idMs, timestamp, j);
            && (r.Success? <==> p.Success?)
            && (r.Failure? ==> r.error == p.error)
            && (r.Success? ==> DatastreamIdsMatch(r.value.datastreams)
                               && r.value.observations == s.observations + Tag(v, legend, p.value))
    decreases |columns| - j
  {
    if j < |columns| {
      var column := columns[j];
      var cell := CellAt(row, j);
      if !IsMeasurementColumn(column, timestampColumn) || cell.Missing? {
        ProcessCellsAgrees(v, legend, s, idMs, thingKey, thingId, site, timestamp, columns, row, timestampColumn, j + 1);
      } else if AsFloat(cell).Some? {
        var value := AsFloat(cell).value;
        var s2 := RecordValue(v, s, thingKey, thingId, site, timestamp, CodeOf(column), value);
        RecordValueAgrees(v, legend, s, idMs, thingKey, thingId, site, timestamp, CodeOf(column), value);
        ProcessCellsAgrees(v, legend, s2, idMs, thingKey, thingId, site, timestamp, columns, row, timestampColumn, j + 1);
        var p := CellReadings(columns, row, timestampColumn, idMs, timestamp, j + 1);
        if p.Success? {
          var reading := Reading(idMs, timestamp, CodeOf(column), value);
          assert CellReadings(columns, row, timestampColumn, idMs, timestamp, j) == Success([reading] + p.value);
          assert Tag(v, legend, [reading]) == [ObservationOf(v, legend, reading)];
          TagAppend(v, legend, [reading], p.value);
          AppendAssociative(s.observations, [ObservationOf(v, legend, reading)], Tag(v, legend, p.value));
        }
      }
    }
  }

  /** Processing a row's cells for a registered Thing keeps the invariant. */
  lemma {:induction false} ProcessCellsKeepsInv(v: Variant, s: State, thingKey: string, thingId: string, site: Site,
                                                timestamp: Cell, columns: seq<string>, row: Row, timestampColumn: string,
                                                j: nat)
    requires j <= |columns|
    requires Inv(s) && thingKey in s.things.entries
    ensures var r := ProcessCells(v, s, thingKey, thingId, site, timestamp, columns, row, timestampColumn, j);
            r.Success? ==> Inv(r.value)
    decreases |columns| - j
  {
    if j < |columns| {
      var column := columns[j];
      var cell := CellAt(row, j);
      if !IsMeasurementColumn(column, timestampColumn) || cell.Missing? {
        ProcessCellsKeepsInv(v, s, thingKey, thingId, site, timestamp, columns, row, timestampColumn, j + 1);
      } else if AsFloat(cell).Some? {
        var value := AsFloat(cell).value;
        var s2 := RecordValue(v, s, thingKey, thingId, site, timestamp, CodeOf(column), value);
        RecordValueKeepsInv(v, s, thingKey, thingId, site, timestamp, CodeOf(column), value);
        ProcessCellsKeepsInv(v, s2, thingKey, thingId, site, timestamp, columns, row, timestampColumn, j + 1);
        assert ProcessCells(v, s, thingKey, thingId, site, timestamp, columns, row, timestampColumn, j)
            == ProcessCells(v, s2, thingKey, thingId, site, timestamp, columns, row, timestampColumn, j + 1);
      }
    }
  }

  /**
   * Processing a row fails exactly when the pivot does, with the same error, and
   * otherwise appends exactly the row's readings.
   */
  lemma ProcessRowAgrees(v: Variant, legend: LegendMap, category: string, timestampColumn: string,
                         columns: seq<string>, s: State, row: Row)
    requires IdsMatch(s)
    ensures Agrees(v, legend, s, ProcessRow(v, legend, category, timestampColumn, columns, s, row),
                   RowReadings(columns, row, timestampColumn))
  {
    var idCell := Get(columns, row, "ID_MS");
    if idCell.Success? {
      var idMs := Str(idCell.value);
      var site := SiteOf(legend, idMs);
      var thingKey := ThingKey(v, site, idMs);
      CreateThingId(s, v, site, idMs, category);
      var (s1, thing) := CreateThing(s, v, site, idMs, category);
      var s2 := CreateLocation(s1, v, thingKey, thing.id, site);
      var timestamp := Get(columns, row, timestampColumn);
      if timestamp.Success? && !timestamp.value.Missing? {
        ProcessCellsAgrees(v, legend, s2, idMs, thingKey, thing.id, site, IsoFormat(timestamp.value),
                           columns, row, timestampColumn, 0);
      }
    }
  }

  /** Processing a row keeps the invariant, and keeps every Thing's Location registered. */
  lemma ProcessRowKeepsInv(v: Variant, legend: LegendMap, category: string, timestampColumn: string,
                           columns: seq<string>, s: State, row: Row)
    requires Inv(s)
    ensures var r := ProcessRow(v, legend, category, timestampColumn, columns, s, row);
            r.Success? ==> Inv(r.value) && (LocationsComplete(s) ==> LocationsComplete(r.value))
  {
    var idCell := Get(columns, row, "ID_MS");
    if idCell.Success? {
      var idMs := Str(idCell.value);
      var site := SiteOf(legend, idMs);
      var thingKey := ThingKey(v, site, idMs);
      CreateThingKeepsInv(s, v, site, idMs, category);
      var (s1, thing) := CreateThing(s, v, site, idMs, category);
      CreateLocationKeepsInv(s1, v, thingKey, thing.id, site);
      var s2 := CreateLocation(s1, v, thingKey, thing.id, site);
      assert LocationsComplete(s) ==> LocationsComplete(s2);
      var timestamp := Get(columns, row, timestampColumn);
      if timestamp.Success? && !timestamp.value.Missing? {
        ProcessCellsKeepsInv(v, s2, thingKey, thing.id, site, IsoFormat(timestamp.value), columns, row, timestampColumn, 0);
      }
    }
  }

  /** A row with a missing timestamp still registers its Thing and Location but records no Observation. */
  lemma MissingTimestampRecordsNothing(v: Variant, legend: LegendMap, category: string, timestampColumn: string,
                                       columns: seq<string>, s: State, row: Row)
    requires "ID_MS" in columns && Get(columns, row, timestampColumn) == Success(Missing)
    ensures var r := ProcessRow(v, legend, category, timestampColumn, columns, s, row);
            var idMs := Str(Get(columns, row, "ID_MS").value);
            var key := ThingKey(v, SiteOf(legend, idMs), idMs);
            && r.Success?
            && r.value.observations == s.observations
            && key in r.value.things.entries
            && r.value.things.entries[key].id in r.value.locations.entries
  {
  }

  lemma {:induction false} ProcessRowsAgrees(v: Variant, legend: LegendMap, category: string, timestampColumn: string,
                                             columns: seq<string>, s: State, rows: seq<Row>, i: nat)
    requires i <= |rows| && IdsMatch(s)
    ensures Agrees(v, legend, s, ProcessRows(v, legend, category, timestampColumn, columns, s, rows, i),
                   RowsReadings(columns, rows, timestampColumn, i))
    decreases |rows| - i
  {
    if i < |rows| {
      var first := ProcessRow(v, legend, category, timestampColumn, columns, s, rows[i]);
      var pFirst := RowReadings(columns, rows[i], timestampColumn);
      ProcessRowAgrees(v, legend, category, timestampColumn, columns, s, rows[i]);
      if first.Success? {
        ProcessRowsAgrees(v, legend, category, timestampColumn, columns, first.value, rows, i + 1);
        ChainAgrees(v, legend, s, first, pFirst,
                    ProcessRows(v, legend, category, timestampColumn, columns, first.value, rows, i + 1),
                    RowsReadings(columns, rows, timestampColumn, i + 1));
      }
    }
  }

  lemma {:induction false} ProcessRowsKeepsInv(v: Variant, legend: LegendMap, category: string, timestampColumn: string,
                                               columns: seq<string>, s: State, rows: seq<Row>, i: nat)
    requires i <= |rows| && Inv(s)
    ensures var r := ProcessRows(v, legend, category, timestampColumn, columns, s, rows, i);
            r.Success? ==> Inv(r.value) && (LocationsComplete(s) ==> LocationsComplete(r.value))
    decreases |rows| - i
  {
    if i < |rows| {
      ProcessRowKeepsInv(v, legend, category, timestampColumn, columns, s, rows[i]);
      var s1 := ProcessRow(v, legend, category, timestampColumn, columns, s, rows[i]);
      if s1.Success? {
        ProcessRowsKeepsInv(v, legend, category, timestampColumn, columns, s1.value, rows, i + 1);
      }
    }
  }

  lemma ProcessSheetAgrees(v: Variant, legend: LegendMap, s: State, sheet: Sheet)
    requires IdsMatch(s)
    ensures Agrees(v, legend, s, ProcessSheet(v, legend, s, sheet), SheetReadings(v, sheet))
  {
    if sheet.name != "LEGENDE" {
      var role := RoleOf(sheet.name);
      if !(v.LegendKeyed? && ("ID_MS" !in sheet.columns || role.timestampColumn !in sheet.columns)) {
        ProcessRowsAgrees(v, legend, role.category, role.timestampColumn, sheet.columns, s, sheet.rows, 0);
      }
    }
  }

  lemma ProcessSheetKeepsInv(v: Variant, legend: LegendMap, s: State, sheet: Sheet)
    requires Inv(s)
    ensures var r := ProcessSheet(v, legend, s, sheet);
            r.Success? ==> Inv(r.value) && (LocationsComplete(s) ==> LocationsComplete(r.value))
  {
    if sheet.name != "LEGENDE" {
      var role := RoleOf(sheet.name);
      if !(v.LegendKeyed? && ("ID_MS" !in sheet.columns || role.timestampColumn !in sheet.columns)) {
        ProcessRowsKeepsInv(v, legend, role.category, role.timestampColumn, sheet.columns, s, sheet.rows, 0);
      }
    }
  }

  /**
   * The whole conversion loop fails exactly when the pivot of the workbook does, with
   * the same error, and otherwise records exactly the pivot's readings, in workbook,
   * row and column order, each tagged with its Datastream.
   */
  lemma {:induction false} ProcessSheetsAgrees(v: Variant, legend: LegendMap, s: State, wb: Workbook, i: nat)
    requires i <= |wb| && IdsMatch(s)
    ensures Agrees(v, legend, s, ProcessSheets(v, legend, s, wb, i), SheetsReadings(v, wb, i))
    decreases |wb| - i
  {
    if i < |wb| {
      var first := ProcessSheet(v, legend, s, wb[i]);
      ProcessSheetAgrees(v, legend, s, wb[i]);
      if first.Success? {
        ProcessSheetsAgrees(v, legend, first.value, wb, i + 1);
        ChainAgrees(v, legend, s, first, SheetReadings(v, wb[i]),
                    ProcessSheets(v, legend, first.value, wb, i + 1), SheetsReadings(v, wb, i + 1));
      }
    }
  }

  /** The whole conversion loop keeps the invariant, and keeps every Thing's Location registered. */
  lemma {:induction false} ProcessSheetsKeepsInv(v: Variant, legend: LegendMap, s: State, wb: Workbook, i: nat)
    requires i <= |wb| && Inv(s)
    ensures var r := ProcessSheets(v, legend, s, wb, i);
            r.Success? ==> Inv(r.value) && (LocationsComplete(s) ==> LocationsComplete(r.value))
    decreases |wb| - i
  {
    if i < |wb| {
      ProcessSheetKeepsInv(v, legend, s, wb[i]);
      var s1 := ProcessSheet(v, legend, s, wb[i]);
      if s1.Success? {
        ProcessSheetsKeepsInv(v, legend, s1.value, wb, i + 1);
      }
    }
  }

  lemma AppendAssociative<T>(a: seq<T>, b: seq<T>, c: seq<T>)
    ensures (a + b) + c == a + (b + c)
  {
  }

  // ------------------------------------------------------------ categories

  /** Every Thing `s'` registers beyond `s` has category `category`. */
  ghost predicate NewThingsIn(s: State, s': State, category: string) {
    forall k :: k in s'.things.entries && k !in s.things.entries ==> s'.things.entries[k].category == category
  }

  /** A row registers at most its station's Thing, with the category it was given. */
  lemma ProcessRowCategory(v: Variant, legend: LegendMap, category: string, timestampColumn: string,
                           columns: seq<string>, s: State, row: Row)
    ensures var r := ProcessRow(v, legend, category, timestampColumn, columns, s, row);
            r.Success? ==> NewThingsIn(s, r.value, category)
  {
  }

  lemma {:induction false} ProcessRowsCategory(v: Variant, legend: LegendMap, category: string, timestampColumn: string,
                                               columns: seq<string>, s: State, rows: seq<Row>, i: nat)
    requires i <= |rows|
    ensures var r := ProcessRows(v, legend, category, timestampColumn, columns, s, rows, i);
            r.Success? ==> NewThingsIn(s, r.value, category)
    decreases |rows| - i
  {
    if i < |rows| {
      var first := ProcessRow(v, legend, category, timestampColumn, columns, s, rows[i]);
      if first.Success? {
        var s1 := first.value;
        ProcessRowCategory(v, legend, category, timestampColumn, columns, s, rows[i]);
        ProcessRowsCategory(v, legend, category, timestampColumn, columns, s1, rows, i + 1);
        var r := ProcessRows(v, legend, category, timestampColumn, columns, s1, rows, i + 1);
        if r.Success? {
          forall k | k in r.value.things.entries && k !in s.things.entries
            ensures r.value.things.entries[k].category == category
          {
            if k in s1.things.entries {
              assert r.value.things.entries[k] == s1.things.entries[k];
            }
          }
        }
      }
    }
  }

  /**
   * A Thing first registered while a sheet is processed has the category the
   * sheet's name gives: "Weather Station", "Soil Sensor" or "Generic Sensor".
   */
  lemma ProcessSheetCategory(v: Variant, legend: LegendMap, s: State, sheet: Sheet)
    ensures var r := ProcessSheet(v, legend, s, sheet);
            r.Success? ==> NewThingsIn(s, r.value, RoleOf(sheet.name).category)
  {
    var role := RoleOf(sheet.name);
    ProcessRowsCategory(v, legend, role.category, role.timestampColumn, sheet.columns, s, sheet.rows, 0);
  }
}

=== FILE: registry.dfy ===
/**
 * The create-or-get entity store: a Python dict keyed by an entity's natural
 * key, whose iteration order is insertion order.
 */
module Registry {

  datatype Registry<V> = Registry(entries: map<string, V>, order: seq<string>)

  /** `order` lists every stored key exactly once, in insertion order. */
  ghost predicate Valid<V>(r: Registry<V>) {
    && (forall k :: k in r.entries <==> k in r.order)
    && (forall i, j :: 0 <= i < j < |r.order| ==> r.order[i] != r.order[j])
  }

  function Empty<V>(): (r: Registry<V>)
    ensures Valid(r) && r.entries == map[] && r.order == []
  {
    Registry(map[], [])
  }

  /** `r'` is `r` plus possibly more keys: nothing stored in `r` has changed or moved. */
  ghost predicate Extends<V>(r: Registry<V>, r': Registry<V>) {
    && (forall k :: k in r.entries ==> k in r'.entries && r'.entries[k] == r.entries[k])
    && r.order <= r'.order
  }

  /**
   * `if key not in d: d[key] = created` followed by `return d[key]`. The stored entity
   * is returned in both cases; a known key leaves the registry as it was.
   */
  function CreateOrGet<V>(r: Registry<V>, key: string, created: V): (res: (Registry<V>, V))
    ensures key in res.0.entries && res.1 == res.0.entries[key]
    ensures Extends(r, res.0)
    ensures key in r.entries ==> res.0 == r && res.1 == r.entries[key]
    ensures key !in r.entries ==> res.1 == created && res.0.order == r.order + [key]
    ensures res.0.entries.Keys == r.entries.Keys + {key}
  {
    if key in r.entries then (r, r.entries[key])
    else (Registry(r.entries[key := created], r.order + [key]), created)
  }

  /** Create-or-get keeps a registry valid: a new key is appended to the order exactly once. */
  lemma CreateOrGetKeepsValid<V>(r: Registry<V>, key: string, created: V)
    requires Valid(r)
    ensures Valid(CreateOrGet(r, key, created).0)
  {
    var r' := CreateOrGet(r, key, created).0;
    if key !in r.entries {
      forall i, j | 0 <= i < j < |r'.order| ensures r'.order[i] != r'.order[j] {
        if j == |r.order| {
          assert r.order[i] in r.entries;
        }
      }
    }
  }

  /** Create-or-get is idempotent: a second call with the same key, whatever it would build, returns the first call's entity and changes nothing. */
  lemma CreateOrGetTwice<V>(r: Registry<V>, key: string, first: V, second: V)
    ensures var (r1, e1) := CreateOrGet(r, key, first);
            CreateOrGet(r1, key, second) == (r1, e1)
  {
  }
}

=== FILE: strings.dfy ===
/** The handful of Python `str` operations the converters rely on, over `seq<char>`. */
module Strings {
  import opened Wrappers

  /** `s.startswith(prefix)`. */
  predicate StartsWith(s: string, prefix: string) {
    prefix <= s
  }

  /** `sub in s`: `sub` occurs somewhere in `s`. */
  function Contains(s: string, sub: string): (b: bool)
    ensures b <==> exists i :: 0 <= i <= |s| && sub <= s[i..]
    decreases |s|
  {
    if sub <= s then
      assert sub <= s[0..];
      true
    else if |s| == 0 then
      false
    else
      var b := Contains(s[1..], sub);
      assert forall i :: 1 <= i <= |s| ==> s[i..] == s[1..][i - 1..];
      if b then
        var i :| 0 <= i <= |s[1..]| && sub <= s[1..][i..];
        assert s[1..][i..] == s[i + 1..];
        b
      else
        b
  }

  /** `s.split(sep)[0]`: the text before the first `sep`, or all of `s` when there is none. */
  function Before(s: string, sep: char): (t: string)
    ensures t <= s
    ensures sep !in t
    ensures t == s || s[|t|] == sep
  {
    if |s| == 0 then ""
    else if s[0] == sep then ""
    else [s[0]] + Before(s[1..], sep)
  }

  /** `s.split(sep)[1]`; `None` where Python raises IndexError because `sep` does not occur. */
  function SecondField(s: string, sep: char): (r: Option<string>)
    ensures r.None? <==> sep !in s
    ensures r.Some? ==>
      var head := Before(s, sep) + [sep] + r.value;
      && sep !in r.value
      && head <= s
      && (head == s || s[|head|] == sep)
  {
    if sep !in s then None
    else
      var first := Before(s, sep);
      assert |first| < |s|;
      var rest := s[|first| + 1..];
      var second := Before(rest, sep);
      assert s == first + [sep] + rest;
      Some(second)
  }

  /** `s.replace(pat, rep)` for a non-empty `pat`: every leftmost non-overlapping occurrence is replaced. */
  function ReplaceAll(s: string, pat: string, rep: string): string
    requires pat != []
    decreases |s|
  {
    if pat <= s then rep + ReplaceAll(s[|pat|..], pat, rep)
    else if |s| == 0 then ""
    else [s[0]] + ReplaceAll(s[1..], pat, rep)
  }

  /** Text without an occurrence of the pattern is left as it is. */
  lemma {:induction false} ReplaceAllAbsent(s: string, pat: string, rep: string)
    requires pat != [] && !Contains(s, pat)
    ensures ReplaceAll(s, pat, rep) == s
    decreases |s|
  {
    if |s| > 0 {
      assert !(pat <= s[0..]);
      assert s[0..] == s;
      ReplaceAllAbsent(s[1..], pat, rep);
    }
  }

  /** Two identifiers built by prefixing the same tag are equal only if the keys are. */
  lemma PrefixInjective(tag: string, a: string, b: string)
    requires tag + a == tag + b
    ensures a == b
  {
    assert a == (tag + a)[|tag|..];
    assert b == (tag + b)[|tag|..];
  }

  /** `split(sep)[0]` stops at the first `sep`: the text before it, whatever follows. */
  lemma {:induction false} BeforeIs(s: string, sep: char, head: string, tail: string)
    requires s == head + tail && sep !in head && (tail == [] || tail[0] == sep)
    ensures Before(s, sep) == head
    decreases |head|
  {
    if |head| > 0 {
      assert s[0] == head[0] && s[1..] == head[1..] + tail;
      BeforeIs(s[1..], sep, head[1..], tail);
    } else if tail != [] {
      assert s[0] == sep;
    }
  }

  /** `split(sep)[1]` of `first + sep + second + rest`, where `rest` is empty or starts a third field. */
  lemma SecondFieldIs(s: string, sep: char, first: string, second: string, rest: string)
    requires s == first + [sep] + second + rest
    requires sep !in first && sep !in second && (rest == [] || rest[0] == sep)
    ensures SecondField(s, sep) == Some(second)
  {
    assert s[|first|] == sep;
    BeforeIs(s, sep, first, [sep] + second + rest);
    assert s[|first| + 1..] == second + rest;
    BeforeIs(second + rest, sep, second, rest);
  }

  /** An occurrence at the front is replaced and the scan goes on after it. */
  lemma ReplaceAllHit(pat: string, rest: string, rep: string)
    requires pat != []
    ensures ReplaceAll(pat + rest, pat, rep) == rep + ReplaceAll(rest, pat, rep)
  {
    assert (pat + rest)[|pat|..] == rest;
  }

  /** A first character that cannot start an occurrence is kept. */
  lemma ReplaceAllMiss(s: string, pat: string, rep: string)
    requires pat != [] && s != [] && s[0] != pat[0]
    ensures ReplaceAll(s, pat, rep) == [s[0]] + ReplaceAll(s[1..], pat, rep)
  {
    assert !(pat <= s);
  }

  /** Text without the pattern's first character is kept as it is, and the scan goes on after it. */
  lemma {:induction false} ReplaceAllSkip(kept: string, rest: string, pat: string, rep: string)
    requires pat != [] && pat[0] !in kept
    ensures ReplaceAll(kept + rest, pat, rep) == kept + ReplaceAll(rest, pat, rep)
    decreases |kept|
  {
    if kept != [] {
      var s := kept + rest;
      var tail := kept[1..];
      assert s[0] == kept[0] && s[1..] == tail + rest;
      assert s[0] != pat[0] by { assert kept[0] in kept; }
      ReplaceAllMiss(s, pat, rep);
      assert pat[0] !in tail by {
        forall i | 0 <= i < |tail| ensures tail[i] != pat[0] {
          assert tail[i] == kept[i + 1];
        }
      }
      ReplaceAllSkip(tail, rest, pat, rep);
      var x := ReplaceAll(rest, pat, rep);
      assert kept == [kept[0]] + tail;
      calc {
        ReplaceAll(s, pat, rep);
        [kept[0]] + ReplaceAll(tail + rest, pat, rep);
        [kept[0]] + (tail + x);
        ([kept[0]] + tail) + x;
      }
    } else {
      assert kept + rest == rest;
    }
  }

}

=== FILE: table.dfy ===
/**
 * The raw tabular input: a workbook of named sheets, each a header row plus
 * data rows of cells, as the (excluded) spreadsheet loader hands it over.
 */
module Table {
  import opened Wrappers

  /**
   * One cell. `text` is what Python's `str()` makes of the value, so number
   * and date formatting stay opaque.
   */
  datatype Cell =
    | Missing                          // NaN, None or NaT: `pd.isna` holds
    | Num(value: real, text: string)   // a value Python's `float()` accepts
    | Text(text: string)               // text `float()` rejects
    | Time(iso: string, text: string)  // a datetime; `iso` is its `isoformat()`

  /** A data row; cells past its end read as missing, as the loader pads ragged rows. */
  type Row = seq<Cell>

  datatype Sheet = Sheet(name: string, columns: seq<string>, rows: seq<Row>)

  /** Sheets in workbook order. */
  type Workbook = seq<Sheet>

  /** What aborts a conversion: a KeyError on a row, or `float()` refusing a value. */
  datatype Error =
    | MissingColumn(column: string)
    | NotNumeric(column: string, cell: Cell)

  /** `str(value)`; pandas renders a missing value as "nan". */
  function Str(c: Cell): string {
    match c
    case Missing => "nan"
    case Num(_, t) => t
    case Text(t) => t
    case Time(_, t) => t
  }

  /** A datetime timestamp becomes its ISO string; any other timestamp value is kept as it is. */
  function IsoFormat(c: Cell): (r: Cell)
    ensures c.Time? ==> r == Text(c.iso)
    ensures !c.Time? ==> r == c
  {
    if c.Time? then Text(c.iso) else c
  }

  /** `float(value)`: defined for numbers only (a missing value never reaches it). */
  function AsFloat(c: Cell): Option<real> {
    if c.Num? then Some(c.value) else None
  }

  /** The cell of `row` in column `j`. */
  function CellAt(row: Row, j: nat): Cell {
    if j < |row| then row[j] else Missing
  }

  /** Position of the first column called `name`. */
  function IndexOf(columns: seq<string>, name: string): (r: Option<nat>)
    ensures r.None? <==> name !in columns
    ensures r.Some? ==> r.value < |columns| && columns[r.value] == name && name !in columns[..r.value]
  {
    if |columns| == 0 then None
    else if columns[0] == name then Some(0)
    else
      match IndexOf(columns[1..], name)
      case None => None
      case Some(i) =>
        assert columns[..i + 1] == [columns[0]] + columns[1..][..i];
        Some(i + 1)
  }

  /** `row[name]`: the named cell, or the KeyError pandas raises when the column does not exist. */
  function Get(columns: seq<string>, row: Row, name: string): (r: Result<Cell, Error>)
    ensures r.Failure? <==> name !in columns
    ensures r.Failure? ==> r.error == MissingColumn(name)
  {
    match IndexOf(columns, name)
    case None => Failure(MissingColumn(name))
    case Some(j) => Success(CellAt(row, j))
  }
}

=== FILE: transform.dfy ===
/**
 * `SensorThingsTransformer.transform` and the legend-keyed `excel_to_sensorthings`:
 * read the legend (legend-keyed converter only), run the conversion loop over every
 * sheet from empty dictionaries, then assemble the nested document.
 */
module Transform {
  import opened Wrappers
  import opened Table
  import opened Entities
  import opened Legend
  import opened Materializer
  import opened Pivot
  import opened Process
  import opened Assembly

  /** The station-keyed converter reads no legend; the legend-keyed one reads LEGENDE. */
  function LegendFor(v: Variant, wb: Workbook): LegendMap {
    match v
    case StationKeyed => map[]
    case LegendKeyed => BuildLegend(wb)
  }

  /** The dictionaries after the conversion loop, or the error that aborted it. */
  function Materialize(v: Variant, wb: Workbook): (r: Result<State, Error>)
    ensures r.Success? ==> Inv(r.value) && LocationsComplete(r.value)
  {
    var s0 := Initial();
    assert LocationsComplete(s0);
    ProcessSheetsKeepsInv(v, LegendFor(v, wb), s0, wb, 0);
    ProcessSheets(v, LegendFor(v, wb), s0, wb, 0)
  }

  /** The conversion with the intended association of Datastreams and Observations. */
  function Transform(v: Variant, wb: Workbook): (r: Result<Document, Error>)
    ensures r.Success? <==> Materialize(v, wb).Success?
  {
    var s :- Materialize(v, wb);
    Success(Assemble(s))
  }

  /** The conversion as the converters assemble it. */
  function TransformAsWritten(v: Variant, wb: Workbook): (r: Result<Document, Error>)
    ensures r.Success? <==> Materialize(v, wb).Success?
  {
    var s :- Materialize(v, wb);
    Success(AssembleAsWritten(v, s))
  }

  /**
   * The conversion fails exactly when the pivot of the workbook does, with the same
   * error; otherwise it records exactly the pivot's readings, tagged with their
   * Datastreams, and the document nests each of them exactly once.
   */
  lemma TransformAgreesWithPivot(v: Variant, wb: Workbook)
    ensures var r := Transform(v, wb);
            var p := SheetsReadings(v, wb, 0);
            && (r.Success? <==> p.Success?)
            && (r.Failure? ==> r.error == p.error)
            && (r.Success? ==> && Materialize(v, wb).value.observations == Tag(v, LegendFor(v, wb), p.value)
                               && TotalObservations(r.value) == |p.value|)
  {
    var s0 := Initial();
    ProcessSheetsAgrees(v, LegendFor(v, wb), s0, wb, 0);
    var m := Materialize(v, wb);
    if m.Success? {
      AssembleConservesObservations(m.value);
    }
  }

  /**
   * Every Thing of the document carries exactly its one Location at (0, 0) and
   * exactly its own Datastreams, each with the Observations recorded for it.
   */
  lemma TransformShape(v: Variant, wb: Workbook)
    ensures var r := Transform(v, wb);
            r.Success? ==>
              var s := Materialize(v, wb).value;
              forall i :: 0 <= i < |r.value| ==>
                && |r.value[i].locations| == 1
                && r.value[i].locations[0].coordinates == (0, 0)
                && r.value[i].thing == s.things.entries[s.things.order[i]]
                && (forall d :: d in r.value[i].datastreams <==>
                      Owned(s, s.things.order[i], s.datastreams.order, d))
  {
    var m := Materialize(v, wb);
    if m.Success? {
      var s := m.value;
      AssembleLocations(s);
      forall i | 0 <= i < |s.things.order| {
        DatastreamsOfExactly(s, s.things.order[i], s.datastreams.order);
      }
    }
  }
}

=== FILE: wrappers.dfy ===
/** Option and Result: the model's stand-ins for Python's `dict.get` misses and raised exceptions. */
module Wrappers {

  /** A value that may be absent. */
  datatype Option<+T> = None | Some(value: T)

  /** The outcome of a step that may raise: `Failure` aborts the whole conversion. */
  datatype Result<+T, +E> = Success(value: T) | Failure(error: E) {

    predicate IsFailure() {
      Failure?
    }

    function PropagateFailure<U>(): Result<U, E>
      requires Failure?
    {
      Failure(error)
    }

    function Extract(): T
      requires Success?
    {
      value
    }
  }
}
